=== FILE: README.md ===
# Task manager core in Dafny

This project models the server-side core of a small task manager: the
per-address request rate limiter that guards the login form, the token
bucket of the rate-limiting demo page, task ownership and sharing (access
levels "owner", "editor", "viewer"), the status buttons and footer controls
on a task's page, the audit records written on login and signup, the
new-task and login form actions, and the split of the task list into three
status lanes.

The database is modelled as a `Store`: a map from task id to task, a map
from (task id, user id) to a sharing grant, and the set of user ids.
Request headers are a map from lower-case header name to value. Form data
is a map from field name to a text value or a file. Clocks, the
`NODE_ENV` switch, email validation, credential verification and
redirect sanitising are all parameters. JavaScript's "empty string is
falsy" rule is written out as `Base.Truthy`. `String.length` counts UTF-16
code units, and `Base.Utf16Length` models that count.

Modules (one per source file, plus `Base`):

- `RateLimiter` — `app/lib/rate-limiter.ts`.
- `DemoBucket` — the token bucket hook in `app/routes/rate-limiting-demo.tsx`.
- `Tasks` — `app/models/task.server.ts`.
- `StatusAction` — `app/components/status-action.tsx`.
- `TaskFooter` — `app/components/task-footer-buttons.tsx`.
- `TaskDetail` — the page of `app/routes/tasks.$taskId._index.tsx`. It models
  the loader (lines 24-36), which fetches the task with `getTask` and then
  its access level, and the footer gate (lines 109-114). The gate renders
  `StatusActions` and `TaskFooterButtons` only for "owner" or "editor". The
  page action's status check (lines 58-64) is `StatusAction.AcceptedStatus`.
  The table below cites the model files these members call into.
- `AuditLog` — `app/models/audit-log.server.ts`.
- `NewTask` — the action of `app/routes/tasks.new.tsx`.
- `LoginAction` — the action of `app/routes/login.tsx`.
- `Lanes` — the lane filters of `app/routes/tasks._index.tsx`.

Points where the model follows the code's exact behaviour:

- The server limiter refills only when strictly more than 10 000 ms have
  passed. A client that waits exactly 10 s after exhausting its bucket is
  therefore still refused (`RateLimiter.NoRefillAtExactInterval`); it
  gets 16 more requests only after that
  (`RateLimiter.OneTickAfterExhaustion`).
- The limiter keys on the whole `x-forwarded-for` value. The audit record
  instead stores the first hop of that value, trimmed. The two agree for a
  single address and differ for a proxy chain
  (`LoginAction.AuditAddressDiffersOnChain`).
- The limiter resets the refill clock to `now` on every refill. Any part
  of a tick that has already elapsed is lost
  (`RateLimiter.RefillLosesPartialTick`). The demo bucket keeps that
  leftover instead (`DemoBucket.RefillComposes`).
- Sharing checks self-sharing before it checks ownership. A non-owner who
  names themselves as the target is told "Cannot share a task with
  yourself", not "Task not found".
- The access level of a grant is a free string. A grant whose level is
  "owner" is reported as "owner" by the access-level query, yet it gives
  no edit rights (`Tasks.ForgedOwnerGrant`). The task page still shows that
  user the delete button and the status moves, and the server then refuses
  both (`TaskDetail.ForgedOwnerSeesDelete`). The share form offers only
  "viewer" and "editor", so such a grant needs a hand-made request.
- The rate limiter takes no lock and evicts no buckets; the model has
  neither.

## Model

| member | source | states |
|---|---|---|
| Base.Utf16Length | app/routes/login.tsx:47 | a string's JavaScript length lies between its code-point count and twice that count, and is zero only for the empty string |
| Base.Utf16LengthAppend | app/routes/login.tsx:47 | the JavaScript length of a concatenation is the sum of the lengths of its parts |
| Base.Utf16LengthBmp | app/routes/login.tsx:47 | a string of Basic Multilingual Plane characters has one code unit per character |
| Base.Utf16LengthAstral | app/routes/login.tsx:47 | a string of characters outside the Basic Multilingual Plane has two code units per character |
| RateLimiter.GetIP | app/lib/rate-limiter.ts:12-19 | the key is a non-empty `x-forwarded-for`, else a non-empty `cf-connecting-ip`, else "unknown"; it is never empty |
| RateLimiter.Refill | app/lib/rate-limiter.ts:21-30 | an elapsed time of 10 000 ms or less changes nothing. Any longer wait moves the clock to `now`, adds whole multiples of 16 tokens capped at 100, never lowers the count and keeps it in 0..100. One tick adds exactly min(100, tokens+16); seven ticks always fill the bucket |
| RateLimiter.RefillAddsWholeTicks | app/lib/rate-limiter.ts:21-30 | a wait of k whole ticks, and less than k + 1, that exceeds one interval adds exactly min(100, tokens + 16k) and moves the clock to `now` |
| RateLimiter.Lookup | app/lib/rate-limiter.ts:41-45 | a known key yields its stored bucket; an unknown key starts as a full bucket of 100 stamped `now` |
| RateLimiter.CheckRateLimit | app/lib/rate-limiter.ts:32-54 | outside production every request passes and the buckets are unchanged. In production only the request's own key is added or changed. A request is admitted iff its refilled bucket holds a token, and admission spends exactly one. A refusal returns 429 "Too Many Requests" with the bucket at 0. A new key passes with 99 tokens left. Every bucket stays within 0..100 |
| RateLimiter.BurstSpends | app/lib/rate-limiter.ts:46-50 | with a bucket of t tokens stamped `now` and no time passing, a burst of n ≤ t requests is all admitted and leaves t − n tokens |
| RateLimiter.EmptyDenies | app/lib/rate-limiter.ts:48-53 | with no refill due, a request on an exhausted bucket is refused |
| RateLimiter.FreshKeyBurst | app/lib/rate-limiter.ts:40-53 | a new client's first 100 simultaneous requests pass and the 101st is refused |
| RateLimiter.BurstAfter | app/lib/rate-limiter.ts:46-53 | a bucket of t tokens stamped `now` admits exactly t simultaneous requests and refuses the next one |
| RateLimiter.NoRefillAtExactInterval | app/lib/rate-limiter.ts:24 | an exhausted client that waits exactly 10 000 ms is still refused |
| RateLimiter.OneTickAfterExhaustion | app/lib/rate-limiter.ts:21-53 | an exhausted client that waits between 10 and 20 seconds gets exactly 16 admissions and is then refused |
| RateLimiter.RefillLosesPartialTick | app/lib/rate-limiter.ts:24-28 | refilling at 15 s and again at 20 s yields 16 tokens, while a single refill at 20 s yields 32: the clock reset drops partial ticks |
| DemoBucket.RefillTokens | app/routes/rate-limiting-demo.tsx:46-54 | less than one 2 s tick changes nothing. Otherwise the clock advances by a whole number of ticks, leaving `now - lastRefill` equal to the elapsed time mod 2000. From a valid state the tokens become min(6, tokens + ticks credited), so they are never lowered. The timeline is untouched |
| DemoBucket.RefillComposes | app/routes/rate-limiting-demo.tsx:46-54 | drift-freedom: refilling at t1 and then at t2 gives the same state as refilling once at t2 |
| DemoBucket.Hit | app/routes/rate-limiting-demo.tsx:64-69 | a hit appends exactly one dot, allowed iff tokens remain. An allowed hit spends one token; a refused hit changes no count. The refill clock is untouched and tokens stay within 0..6 |
| DemoBucket.HitConserves | app/routes/rate-limiting-demo.tsx:64-69 | allowed dots plus remaining tokens is unchanged by a hit |
| DemoBucket.HitsAllowMin | app/routes/rate-limiting-demo.tsx:64-69 | n hits with no refill in between allow exactly min(n, tokens) of them, add n dots and leave tokens − min(n, tokens) |
| DemoBucket.Reset | app/routes/rate-limiting-demo.tsx:72-76 | reset gives a full bucket of 6 with an empty timeline and the clock at `now` |
| DemoBucket.ResetThenHits | app/routes/rate-limiting-demo.tsx:62-76 | after a reset, n hits allow exactly min(n, 6) |
| DemoBucket.LatestIsNewest | app/routes/rate-limiting-demo.tsx:78 | the animated index is the dot the latest hit appended, and that dot is green iff tokens remained. It is −1 after a reset, and a refill does not move it |
| Tasks.Message | app/models/task.server.ts:133-331 | each error carries the text the source throws: "Insufficient permissions to update this task" (line 133), "Insufficient permissions to update this task status" (182), "Cannot share a task with yourself" (197), "Task not found" (206, 266, 289), "Target user not found" (214) and "You don't have access to this task" (331) |
| Tasks.MessagesDistinct | app/models/task.server.ts:133-331 | different errors never share a message, so the text alone identifies the error |
| Tasks.GetTask | app/models/task.server.ts:5-29 | a task is returned iff it exists and the caller owns it or holds a grant on it, and it is the stored task |
| Tasks.AccessLevel | app/models/task.server.ts:307-335 | "owner" for the task's owner; otherwise the level of the caller's grant; otherwise the "You don't have access to this task" error |
| Tasks.GetTaskIffAccess | app/models/task.server.ts:5-29 | on a consistent store, the task read succeeds exactly when the access-level query does |
| Tasks.CanEditIffOwnerOrEditor | app/models/task.server.ts:105-131 | where levels are the three known ones, edit rights hold iff the access level is "owner" or "editor" |
| Tasks.ForgedOwnerGrant | app/models/task.server.ts:319-334 | a grant whose level is the string "owner" is reported as "owner" but confers no edit right |
| Tasks.UpdateTask | app/models/task.server.ts:95-134 | the update succeeds iff the caller owns the task or holds an "editor" grant. A success writes exactly the new fields and timestamp into that task; a refusal is "Insufficient permissions to update this task". No other task, grant or user changes, and store consistency is kept |
| Tasks.UpdateTaskStatus | app/models/task.server.ts:147-183 | the same permission rule as a full update, but only the status and the timestamp change. A refusal is "Insufficient permissions to update this task status" |
| Tasks.ViewerCannotChange | app/models/task.server.ts:155-182 | a caller whose access level is "viewer", or who has no access, can change neither the task's fields nor its status |
| Tasks.DeleteTask | app/models/task.server.ts:136-142 | one task is deleted iff the caller owns it, and its grants go with it. For anyone else the result is exactly the unchanged store with a count of 0; no error is raised |
| Tasks.ShareTaskWithUser | app/models/task.server.ts:185-250 | errors are checked in order: self-share, then caller not owner ("Task not found"), then unknown target. A success upserts the target's grant with the given level and time and changes no other grant or task |
| Tasks.SharedLevelResolves | app/models/task.server.ts:217-249 | after a successful share, the target can read the task and its access level is the level that was shared |
| Tasks.ReshareOverwrites | app/models/task.server.ts:217-236 | sharing twice leaves only the second grant |
| Tasks.RemoveTaskAccess | app/models/task.server.ts:252-275 | a caller who is not the owner gets "Task not found". Otherwise the target's grant is removed, with a count of 1 if one existed and 0 otherwise; a count of 0 leaves the store unchanged |
| Tasks.RemoveUndoesShare | app/models/task.server.ts:252-275 | removing access right after a share to a user with no prior grant restores the original grants |
| Tasks.GetTaskAccessUsers | app/models/task.server.ts:277-305 | only the owner may list the task's grants (others get "Task not found"). The list is exactly the grants on that task, and it never includes the owner when nobody holds a grant on their own task |
| Tasks.AccessUsersTrackSharing | app/models/task.server.ts:185-305 | after a share the owner's access list holds the target with the new grant; removing the target's access then takes only the target off the list |
| Tasks.ListedLevel | app/models/task.server.ts:64-67 | the listed level is the grant's level when that is non-empty, and "viewer" when it is empty |
| Tasks.GetTaskListItems | app/models/task.server.ts:31-73 | owned tasks are exactly the caller's tasks. Shared tasks are exactly those the caller holds a grant on, each with its listed level |
| Tasks.ListAgreesWithAccess | app/models/task.server.ts:31-73 | every listed task is readable by the caller. An owned entry's access level is "owner"; a shared entry's is the grant's level |
| Tasks.CreateTask | app/models/task.server.ts:75-93 | creation adds exactly one task with the given fields, owned by the caller, and changes nothing else |
| StatusAction.StatusActions | app/components/status-action.tsx:6-70 | "todo" offers only "in_progress"; "in_progress" offers "todo" then "done"; "done" offers only "in_progress"; any other status offers nothing. Every move carries the "update-status" intent |
| StatusAction.OffersExactlyNeighbours | app/components/status-action.tsx:6-70 | a move from one status to another is offered iff both are known statuses one step apart |
| StatusAction.TodoDoneNotAdjacent | app/components/status-action.tsx:6-70 | neither "todo" nor "done" offers a move straight to the other |
| StatusAction.OfferedStatusesAccepted | app/components/status-action.tsx:10-57 | every status the buttons offer passes the page action's status check |
| TaskFooter.TaskFooterButtons | app/components/task-footer-buttons.tsx:12-51 | the edit link is shown iff edit is allowed (default true). Share and delete are shown iff the level is "owner" (default "owner"). The links point at the task's edit and share pages, and no control appears twice |
| TaskFooter.DefaultsShowEverything | app/components/task-footer-buttons.tsx:12 | with neither optional prop given, edit, share and delete are all shown |
| TaskFooter.NonOwnerNeverDeletes | app/components/task-footer-buttons.tsx:16-48 | an explicit non-"owner" level never shows share or delete |
| TaskDetail.TaskPage | app/models/task.server.ts:5-29 | the page is "not found" iff the caller cannot read the task. Otherwise it shows the stored task and its access level. For "owner" or "editor" the status moves are those of the task's status and the footer is the footer buttons for that level, with edit allowed by default; any other level sees neither |
| TaskDetail.PageMatchesGates | app/components/task-footer-buttons.tsx:12-51 | the edit control is shown iff the server would allow an update. Share and delete are shown iff the server's delete would remove the task. Every offered status move would be accepted by the status update |
| TaskDetail.ForgedOwnerSeesDelete | app/components/task-footer-buttons.tsx:16-48 | for a grant whose level is the string "owner", the page offers delete and status moves to a non-owner, while the delete removes nothing and the status update is refused |
| AuditLog.TrimStartSpec | app/models/audit-log.server.ts:99 | the start-trimmed string is the suffix left after removing the longest prefix of trim-space |
| AuditLog.TrimEndSpec | app/models/audit-log.server.ts:99 | the end-trimmed string is the prefix left after removing the longest suffix of trim-space |
| AuditLog.TrimSpec | app/models/audit-log.server.ts:99 | `trim()` returns the piece of the input that starts after its longest all-space prefix and has only trim-space after it; the piece neither starts nor ends with trim-space |
| AuditLog.FirstSegment | app/models/audit-log.server.ts:99 | the result is the longest comma-free prefix, and it is followed by a comma whenever it is shorter than the input |
| AuditLog.GetClientIp | app/models/audit-log.server.ts:95-108 | a non-empty `x-forwarded-for` gives its first entry, trimmed. Failing that, a non-empty `x-real-ip` is returned as is. The result is absent iff both headers are missing or empty |
| AuditLog.ClientIpFirstHop | app/models/audit-log.server.ts:96-100 | a comma-free forwarded value gives the whole value, trimmed, and the first hop taken from `x-forwarded-for` never contains a comma |
| AuditLog.CreateAuditLog | app/models/audit-log.server.ts:13-38 | every input field is copied; details are serialised when given and null when absent |
| AuditLog.UserAgent | app/models/audit-log.server.ts:42 | the user agent is recorded iff the header is non-empty, and then it is the header value |
| AuditLog.LogSuccessfulLogin | app/models/audit-log.server.ts:40-51 | a login success record for the user, with no details, and with the request's client address and user agent |
| AuditLog.LogFailedLogin | app/models/audit-log.server.ts:53-73 | a login failure record whose details hold the email and then the reason, with the optional user id, client address and user agent |
| AuditLog.LogSuccessfulSignup | app/models/audit-log.server.ts:75-93 | a signup success record for the user, whose details hold the email |
| NewTask.BodyOf | app/routes/tasks.new.tsx:15 | the body is null iff the submitted body is missing or empty, and otherwise it is the submitted text |
| NewTask.ColorOf | app/routes/tasks.new.tsx:16 | the colour is the submitted value when non-empty, else "bg-white" |
| NewTask.NewTaskAction | app/routes/tasks.new.tsx:10-28 | the form is refused with 400 "Title is required" iff the title is not non-empty text. Otherwise exactly one "todo" task is created with the caller as owner, the defaulted body and colour, and a redirect to "/tasks". Nothing else changes |
| NewTask.BlankTitleAccepted | app/routes/tasks.new.tsx:18 | a title of one space is accepted; an empty title or a file upload is refused |
| NewTask.TitleOnlyDefaults | app/routes/tasks.new.tsx:13-27 | a title-only form creates a white "todo" task with no body, and its creator then has the "owner" access level |
| LoginAction.Action | app/routes/login.tsx:23-73 | the rate-limit check runs first, and a refusal is 429 with no audit record. Then come, in order: "Email is invalid" with no record; "Password is required", "Password is too short" (under 8 UTF-16 units) and "Invalid email or password", each with one failure record; otherwise a session for the verified user, with one success record and the sanitised redirect |
| LoginAction.ThrottleIgnoresForm | app/routes/login.tsx:24-25 | a throttled request gets the same outcome whatever form it carries |
| LoginAction.LogAgreesWithOutcome | app/routes/login.tsx:39-66 | nothing is throttled outside production. The single audit record reports success iff a session is created, and every record is a login record |
| LoginAction.EightIsEnough | app/routes/login.tsx:47 | an 8-character password passes the length check and a 7-character one is refused. Four emoji pass, because each counts as two units, and so do six letters followed by one emoji |
| LoginAction.AuditAddressMatchesLimiterKey | app/models/audit-log.server.ts:95-100 | for a single forwarded address without surrounding space, the audit address equals the limiter key |
| LoginAction.AuditAddressDiffersOnChain | app/lib/rate-limiter.ts:15 | for a forwarded chain, the limiter keys on the whole chain while the audit record keeps the first hop |
| Lanes.Filter | app/routes/tasks._index.tsx:23-25 | a lane holds only tasks with its status, and exactly as many as the list holds |
| Lanes.FilterKeepsMatches | app/routes/tasks._index.tsx:23-25 | a lane holds every task with its status as often as the list does, in list order |
| Lanes.LanesDisjoint | app/routes/tasks._index.tsx:23-25 | no task appears in two lanes, and a task with an unknown status appears in none |
| Lanes.LaneSizes | app/routes/tasks._index.tsx:23-25 | the three lane sizes plus the number of unknown-status tasks equal the list length |
| Lanes.LanesCoverIffRecognised | app/routes/tasks._index.tsx:23-25 | the lanes never hold more than the list, and they hold all of it iff every status is one of the three |

## Left out

- Database access is modelled as operations on the `Store` value: each
  Prisma call becomes a read or an update of the maps. Query ordering is
  left out, namely `orderBy` in the task list, and so are the user e-mail
  join in `getTaskAccessUsers`, the `createdAt` column and the
  `getAuditLogsByUserId`/`getAllAuditLogs` queries, which only read.
- The schema's cascade rule is not part of this model. `Tasks.DeleteTask`
  assumes that a task's grants are deleted with it, so that every grant
  keeps pointing at an existing task.
- A new grant's `grantedAt` is the database default. The model passes it
  in as the `now` of the share call.
- `Tasks.CreateTask` and `NewTask.NewTaskAction` take the new id and
  timestamp as parameters, and they require that the id is fresh and the
  user exists, as the database would enforce.
- `Tasks.UpdateTask` and `Tasks.UpdateTaskStatus` require a consistent
  store, where every grant names an existing task. The editor branch's
  single-row update would otherwise throw "record not found", and that
  error is not modelled.
- Sessions are left out: `requireUserId`, `createUserSession` and the
  cookie handling. The signed-in user is a parameter, and a login success
  is reported as `SessionCreated`.
- `validateEmail`, `verifyLogin` and `safeRedirect` are function
  parameters with no assumed behaviour. `validateEmail` is applied only to
  text values, which matches its type guard.
- `JSON.stringify` of audit details is abstract. `AuditLog.Serialized`
  keeps the fields in insertion order.
- Headers with repeated values are left out, and so is header-name case
  folding: the map is keyed by lower-case names. Only the first value of a
  repeated form field is modelled.
- Concurrency is left out. Node runs each `checkRateLimit` call without
  interleaving, so the limiter is a pure state transition.
- Some of the demo page is left out: the `setInterval` timer and the
  `useEffect` that installs it, all JSX rendering, and React's state
  batching. Refill and the hit decision are separate transitions, and the
  hit decides on the token count of the current render.
- The task-detail page action is modelled only through the status check
  and the delete and update operations. Its `try`/`catch` error responses
  and its redirects are left out.
- The edit and share routes are left out, as is the date conversion in
  the task-list page.
- The lanes are modelled over a plain list of tasks. As written, the
  task-list page calls `.map` on the object `{ ownedTasks, sharedTasks }`
  that `getTaskListItems` returns (app/routes/tasks._index.tsx:17 against
  app/models/task.server.ts:69-72), so the filters at lines 23-25 never
  receive a list. The model states what those filters do with one.
- The throw after the `return` in `deleteTask`
  (app/models/task.server.ts:144) can never run, so its message has no
  error constructor.
- Tasks.CreateTask: the status is a required argument, where the source
  defaults it to "todo" (app/models/task.server.ts:80). The only caller,
  `NewTask.NewTaskAction`, passes "todo".
- DemoBucket.Hit: does not state that the hit sees the refilled count,
  because under React batching it reads the count of the current render.
  An allowed hit's `setTokens(tokens - 1)`
  (app/routes/rate-limiting-demo.tsx:65) replaces the credit that
  `refillTokens()` (line 63) queued, while `lastRefill` has already moved
  forward, so a hit that lands after a tick boundary loses that tick's
  token. The contract describes the decision of lines 64-69.

=== FILE: audit_log.dfy ===
/** Audit records for authentication events. Each record is built from an
    action, an outcome, the user, the client address and user agent taken
    from the request headers, and optional details that are stored
    serialised. Writing the record to the database is left out; the
    functions here return the record that would be written. */
module AuditLog {
  import opened Base

  datatype AuditAction = Login | Signup | Logout | PasswordReset | AccountUpdate
  datatype AuditStatus = Success | Failure

  /** The fields of a details object, in insertion order. */
  type Details = seq<(string, string)>

  /** The serialised form of a details object. The encoding itself is
      abstract; it keeps the fields it was made from. */
  datatype Serialized = Serialized(fields: Details)

  datatype AuditInput = AuditInput(action: AuditAction, status: AuditStatus,
                                   userId: Option<string>, ipAddress: Option<string>,
                                   userAgent: Option<string>, details: Option<Details>)

  datatype AuditRecord = AuditRecord(action: AuditAction, status: AuditStatus,
                                     userId: Option<string>, ipAddress: Option<string>,
                                     userAgent: Option<string>, details: Option<Serialized>)

  /** The characters `String.prototype.trim` removes: white space and line
      terminators. */
  predicate IsTrimSpace(c: char) {
    || c == '\t' || c == '\n' || c == '\U{000B}' || c == '\U{000C}' || c == '\r' || c == ' '
    || c == '\U{00A0}' || c == '\U{1680}' || ('\U{2000}' <= c <= '\U{200A}')
    || c == '\U{2028}' || c == '\U{2029}' || c == '\U{202F}' || c == '\U{205F}'
    || c == '\U{3000}' || c == '\U{FEFF}'
  }

  /** Drop leading trim-space. */
  function TrimStart(s: string): (r: string)
    ensures |r| <= |s|
  {
    if |s| > 0 && IsTrimSpace(s[0]) then TrimStart(s[1..]) else s
  }

  /** Drop trailing trim-space. */
  function TrimEnd(s: string): (r: string)
    ensures |r| <= |s|
  {
    if |s| > 0 && IsTrimSpace(s[|s| - 1]) then TrimEnd(s[..|s| - 1]) else s
  }

  /** `TrimStart` keeps the suffix after the longest all-space prefix. */
  lemma {:induction false} TrimStartSpec(s: string)
    ensures var r := TrimStart(s);
            && r == s[|s| - |r|..]
            && (forall k :: 0 <= k < |s| - |r| ==> IsTrimSpace(s[k]))
            && (|r| > 0 ==> !IsTrimSpace(r[0]))
  {
    if |s| > 0 && IsTrimSpace(s[0]) {
      var t := s[1..];
      TrimStartSpec(t);
      var r := TrimStart(t);
      assert s[|s| - |r|..] == t[|t| - |r|..];
      forall k | 1 <= k < |s| - |r|
        ensures IsTrimSpace(s[k])
      {
        assert s[k] == t[k - 1];
      }
    }
  }

  /** `TrimEnd` keeps the prefix before the longest all-space suffix. */
  lemma {:induction false} TrimEndSpec(s: string)
    ensures var r := TrimEnd(s);
            && r == s[..|r|]
            && (forall k :: |r| <= k < |s| ==> IsTrimSpace(s[k]))
            && (|r| > 0 ==> !IsTrimSpace(r[|r| - 1]))
  {
    if |s| > 0 && IsTrimSpace(s[|s| - 1]) {
      var t := s[..|s| - 1];
      TrimEndSpec(t);
      var r := TrimEnd(t);
      assert t[..|r|] == s[..|r|];
      forall k | |r| <= k < |s| - 1
        ensures IsTrimSpace(s[k])
      {
        assert s[k] == t[k];
      }
    }
  }

  /** How many trim-space characters `s` starts with. */
  function LeadingSpace(s: string): nat {
    |s| - |TrimStart(s)|
  }

  /** `trim()`. */
  function Trim(s: string): string {
    TrimEnd(TrimStart(s))
  }

  /** What `trim()` returns: the piece of `s` that starts after its longest
      all-space prefix, with nothing but space after it, and neither
      starting nor ending with space. */
  lemma TrimSpec(s: string)
    ensures var r := Trim(s);
            var i := LeadingSpace(s);
            && i + |r| <= |s|
            && r == s[i..i + |r|]
            && (forall k :: 0 <= k < i ==> IsTrimSpace(s[k]))
            && (i < |s| ==> !IsTrimSpace(s[i]))
            && (forall k :: i + |r| <= k < |s| ==> IsTrimSpace(s[k]))
            && (|r| > 0 ==> !IsTrimSpace(r[0]) && !IsTrimSpace(r[|r| - 1]))
  {
    var a := TrimStart(s);
    var r := TrimEnd(a);
    var i := LeadingSpace(s);
    TrimStartSpec(s);
    TrimEndSpec(a);
    assert a == s[i..];
    assert r == s[i..i + |r|];
    forall k | i + |r| <= k < |s|
      ensures IsTrimSpace(s[k])
    {
      assert s[k] == a[k - i];
    }
    if |r| > 0 {
      assert r[0] == a[0];
    }
  }

  /** `split(",")[0]`: everything before the first comma, or all of `s`. */
  function FirstSegment(s: string): (r: string)
    ensures |r| <= |s| && r == s[..|r|]
    ensures ',' !in r
    ensures |r| < |s| ==> s[|r|] == ','
  {
    if |s| == 0 || s[0] == ',' then "" else [s[0]] + FirstSegment(s[1..])
  }

  /** The client address for the record: the first entry of a non-empty
      `x-forwarded-for`, trimmed; else a non-empty `x-real-ip` as is; else
      none. */
  function GetClientIp(h: Headers): (r: Option<string>)
    ensures Truthy(Header(h, "x-forwarded-for"))
            ==> r == Some(Trim(FirstSegment(h["x-forwarded-for"])))
    ensures !Truthy(Header(h, "x-forwarded-for")) && Truthy(Header(h, "x-real-ip"))
            ==> r == Some(h["x-real-ip"])
    ensures r.None? <==> !Truthy(Header(h, "x-forwarded-for")) && !Truthy(Header(h, "x-real-ip"))
  {
    var forwardedFor := Header(h, "x-forwarded-for");
    if Truthy(forwardedFor) then
      Some(Trim(FirstSegment(forwardedFor.value)))
    else
      var realIp := Header(h, "x-real-ip");
      if Truthy(realIp) then realIp else None
  }

  /** A value without a comma is its own first segment. */
  lemma FirstSegmentWhole(v: string)
    requires ',' !in v
    ensures FirstSegment(v) == v
  {
  }

  /** Trimming never introduces a comma. */
  lemma TrimKeepsNoComma(s: string)
    requires ',' !in s
    ensures ',' !in Trim(s)
  {
    var t := Trim(s);
    var i := LeadingSpace(s);
    TrimSpec(s);
    forall k | 0 <= k < |t|
      ensures t[k] != ','
    {
      assert t[k] == s[i + k];
      assert s[i + k] in s;
    }
  }

  /** A forwarded chain without a comma yields the whole value, trimmed,
      and the address taken never contains a comma. */
  lemma ClientIpFirstHop(h: Headers)
    requires Truthy(Header(h, "x-forwarded-for"))
    ensures ',' !in h["x-forwarded-for"]
            ==> GetClientIp(h) == Some(Trim(h["x-forwarded-for"]))
    ensures ',' !in GetClientIp(h).value
  {
    var v := h["x-forwarded-for"];
    if ',' !in v {
      FirstSegmentWhole(v);
    }
    TrimKeepsNoComma(FirstSegment(v));
  }

  /** The stored record: every field copied, details serialised when
      given and null when not. */
  function CreateAuditLog(input: AuditInput): (r: AuditRecord)
    ensures r.action == input.action && r.status == input.status
    ensures r.userId == input.userId && r.ipAddress == input.ipAddress
    ensures r.userAgent == input.userAgent
    ensures r.details.Some? <==> input.details.Some?
    ensures r.details.Some? ==> r.details.value.fields == input.details.value
  {
    AuditRecord(input.action, input.status, input.userId, input.ipAddress, input.userAgent,
                match input.details
                case Some(d) => Some(Serialized(d))
                case None => None)
  }

  /** The user agent recorded: the header when non-empty, else none. */
  function UserAgent(h: Headers): (r: Option<string>)
    ensures r.Some? <==> Truthy(Header(h, "user-agent"))
    ensures r.Some? ==> r.value == h["user-agent"]
  {
    OrUndefined(Header(h, "user-agent"))
  }

  function LogSuccessfulLogin(userId: string, h: Headers): (r: AuditRecord)
    ensures r.action == Login && r.status == Success
    ensures r.userId == Some(userId) && r.details == None
    ensures r.ipAddress == GetClientIp(h) && r.userAgent == UserAgent(h)
  {
    CreateAuditLog(AuditInput(Login, Success, Some(userId), GetClientIp(h), UserAgent(h), None))
  }

  function LogFailedLogin(email: string, reason: string, h: Headers, userId: Option<string>)
    : (r: AuditRecord)
    ensures r.action == Login && r.status == Failure && r.userId == userId
    ensures r.details == Some(Serialized([("email", email), ("reason", reason)]))
    ensures r.ipAddress == GetClientIp(h) && r.userAgent == UserAgent(h)
  {
    CreateAuditLog(AuditInput(Login, Failure, userId, GetClientIp(h), UserAgent(h),
                              Some([("email", email), ("reason", reason)])))
  }

  function LogSuccessfulSignup(userId: string, email: string, h: Headers): (r: AuditRecord)
    ensures r.action == Signup && r.status == Success && r.userId == Some(userId)
    ensures r.details == Some(Serialized([("email", email)]))
    ensures r.ipAddress == GetClientIp(h) && r.userAgent == UserAgent(h)
  {
    CreateAuditLog(AuditInput(Signup, Success, Some(userId), GetClientIp(h), UserAgent(h),
                              Some([("email", email)])))
  }
}

=== FILE: base.dfy ===
/** Shared vocabulary: optional values, request headers and the JavaScript
    notion of a "truthy" string that the application's `||` defaults rely on. */
module Base {

  /** A value that may be absent (`null` / `undefined` in the application). */
  datatype Option<+T> = None | Some(value: T) {
    function GetOr(default: T): T {
      match this
      case Some(v) => v
      case None => default
    }
  }

  /** Map lookup that reports a missing key as `None`. */
  function Get<K, V>(m: map<K, V>, key: K): (r: Option<V>)
    ensures r.Some? <==> key in m
    ensures r.Some? ==> r.value == m[key]
  {
    if key in m then Some(m[key]) else None
  }

  /** Request headers, keyed by lower-case header name. A missing key is what
      `headers.get` reports as `null`. */
  type Headers = map<string, string>

  function Header(h: Headers, name: string): Option<string> {
    Get(h, name)
  }

  /** A string value is truthy in JavaScript exactly when it is present and
      non-empty; `a || b` picks `a` only then. */
  predicate Truthy(o: Option<string>) {
    o.Some? && |o.value| > 0
  }

  /** `a || b` over possibly-absent strings. */
  function OrElse(a: Option<string>, b: string): (r: string)
    ensures Truthy(a) ==> r == a.value
    ensures !Truthy(a) ==> r == b
  {
    if Truthy(a) then a.value else b
  }

  /** `a || undefined` over possibly-absent strings: empty collapses to absent. */
  function OrUndefined(a: Option<string>): (r: Option<string>)
    ensures r.Some? <==> Truthy(a)
    ensures r.Some? ==> r == a
  {
    if Truthy(a) then a else None
  }

  /** A submitted form field: text, or an uploaded file. */
  datatype FormValue = Text(s: string) | File

  /** Submitted form fields by name; a missing key is `formData.get` = null. */
  type FormData = map<string, FormValue>

  function Field(form: FormData, name: string): Option<FormValue> {
    Get(form, name)
  }

  /** `value?.toString()`: a file stringifies to "[object File]". */
  function FieldString(v: Option<FormValue>): (r: Option<string>)
    ensures r.Some? <==> v.Some?
    ensures v.Some? && v.value.Text? ==> r == Some(v.value.s)
    ensures v == Some(File) ==> r == Some("[object File]")
  {
    match v
    case None => None
    case Some(Text(s)) => Some(s)
    case Some(File) => Some("[object File]")
  }

  /** A field that arrived as a non-empty text value. */
  predicate NonEmptyText(v: Option<FormValue>) {
    v.Some? && v.value.Text? && |v.value.s| > 0
  }

  /** JavaScript's `length` of a string: UTF-16 code units, so a character
      outside the Basic Multilingual Plane counts twice. */
  function Utf16Length(s: string): (n: nat)
    ensures |s| <= n <= 2 * |s|
    ensures n == 0 <==> |s| == 0
  {
    if |s| == 0 then 0
    else Utf16Length(s[..|s| - 1]) + (if s[|s| - 1] as int >= 0x1_0000 then 2 else 1)
  }

  /** Only Basic Multilingual Plane characters: one code unit each. */
  lemma {:induction false} Utf16LengthBmp(s: string)
    requires forall k :: 0 <= k < |s| ==> (s[k] as int) < 0x1_0000
    ensures Utf16Length(s) == |s|
  {
    if |s| > 0 {
      Utf16LengthBmp(s[..|s| - 1]);
    }
  }

  /** Only astral characters: two code units each. */
  lemma {:induction false} Utf16LengthAstral(s: string)
    requires forall k :: 0 <= k < |s| ==> (s[k] as int) >= 0x1_0000
    ensures Utf16Length(s) == 2 * |s|
  {
    if |s| > 0 {
      Utf16LengthAstral(s[..|s| - 1]);
    }
  }

  /** The count is additive over concatenation, which pins it for any mix
      of BMP and astral characters. */
  lemma {:induction false} Utf16LengthAppend(a: string, b: string)
    ensures Utf16Length(a + b) == Utf16Length(a) + Utf16Length(b)
    decreases |b|
  {
    if |b| == 0 {
      assert a + b == a;
    } else {
      var b' := b[..|b| - 1];
      Utf16LengthAppend(a, b');
      assert (a + b)[..|a + b| - 1] == a + b';
      assert (a + b)[|a + b| - 1] == b[|b| - 1];
    }
  }

  function Min(a: int, b: int): (r: int)
    ensures r <= a && r <= b
    ensures r == a || r == b
  {
    if a < b then a else b
  }
}

=== FILE: login.dfy ===
/** The login form action: a rate-limit check, then a ladder of form
    checks, each failure after the email check leaving one audit record,
    and finally the credential check. Email validation, credential
    verification and redirect sanitising are collaborators passed in as
    functions; the session they lead to is reported, not created. */
module LoginAction {
  import opened Base
  import RateLimiter
  import AuditLog

  const EmailInvalid: string := "Email is invalid"
  const PasswordRequired: string := "Password is required"
  const PasswordTooShortReason: string := "Password too short"
  const PasswordTooShort: string := "Password is too short"
  const InvalidCredentialsReason: string := "Invalid credentials"
  const InvalidCredentials: string := "Invalid email or password"
  const MinPasswordLength: int := 8

  datatype LoginErrors = LoginErrors(email: Option<string>, password: Option<string>)

  datatype LoginResponse =
    | Throttled(response: RateLimiter.Response)
    | BadRequest(status: int, errors: LoginErrors)
    | SessionCreated(userId: string, redirectTo: string)

  /** The response, the audit records written (in order), and the
      limiter state afterwards. */
  datatype LoginResult = LoginResult(response: LoginResponse, logs: seq<AuditLog.AuditRecord>,
                                     buckets: RateLimiter.Buckets)

  /** The email check passes only for a text value the validator accepts. */
  predicate EmailOk(form: FormData, validateEmail: string -> bool) {
    var email := Field(form, "email");
    email.Some? && email.value.Text? && validateEmail(email.value.s)
  }

  /** The password, when it is non-empty text. */
  predicate PasswordPresent(form: FormData) {
    NonEmptyText(Field(form, "password"))
  }

  predicate PasswordLongEnough(form: FormData)
    requires PasswordPresent(form)
  {
    Utf16Length(form["password"].s) >= MinPasswordLength
  }

  function Action(buckets: RateLimiter.Buckets, h: Headers, now: int, isProduction: bool,
                  form: FormData, validateEmail: string -> bool,
                  verifyLogin: (string, string) -> Option<string>,
                  safeRedirect: (Option<FormValue>, string) -> string): (r: LoginResult)
    ensures var c := RateLimiter.CheckRateLimit(buckets, h, now, isProduction);
            && r.buckets == c.buckets
            && (r.response.Throttled? <==> c.response.Some?)
    ensures r.response.Throttled? ==> r.response.response == RateLimiter.TooManyRequests && r.logs == []
    ensures !r.response.Throttled? && !EmailOk(form, validateEmail)
            ==> r.response == BadRequest(400, LoginErrors(Some(EmailInvalid), None)) && r.logs == []
    ensures !r.response.Throttled? && EmailOk(form, validateEmail) ==> |r.logs| == 1
    ensures !r.response.Throttled? && EmailOk(form, validateEmail) && !PasswordPresent(form)
            ==> r.response == BadRequest(400, LoginErrors(None, Some(PasswordRequired)))
                && r.logs == [AuditLog.LogFailedLogin(form["email"].s, PasswordRequired, h, None)]
    ensures !r.response.Throttled? && EmailOk(form, validateEmail) && PasswordPresent(form)
            && !PasswordLongEnough(form)
            ==> r.response == BadRequest(400, LoginErrors(None, Some(PasswordTooShort)))
                && r.logs == [AuditLog.LogFailedLogin(form["email"].s, PasswordTooShortReason, h, None)]
    ensures !r.response.Throttled? && EmailOk(form, validateEmail) && PasswordPresent(form)
            && PasswordLongEnough(form) && verifyLogin(form["email"].s, form["password"].s).None?
            ==> r.response == BadRequest(400, LoginErrors(Some(InvalidCredentials), None))
                && r.logs == [AuditLog.LogFailedLogin(form["email"].s, InvalidCredentialsReason, h, None)]
    ensures r.response.SessionCreated? <==>
              && !r.response.Throttled? && EmailOk(form, validateEmail) && PasswordPresent(form)
              && PasswordLongEnough(form) && verifyLogin(form["email"].s, form["password"].s).Some?
    ensures r.response.SessionCreated? ==>
              && r.response.userId == verifyLogin(form["email"].s, form["password"].s).value
              && r.response.redirectTo == safeRedirect(Field(form, "redirectTo"), "/tasks")
              && r.logs == [AuditLog.LogSuccessfulLogin(r.response.userId, h)]
  {
    var c := RateLimiter.CheckRateLimit(buckets, h, now, isProduction);
    if c.response.Some? then
      LoginResult(Throttled(c.response.value), [], c.buckets)
    else
      var email := Field(form, "email");
      var password := Field(form, "password");
      var redirectTo := safeRedirect(Field(form, "redirectTo"), "/tasks");
      if !(email.Some? && email.value.Text? && validateEmail(email.value.s)) then
        LoginResult(BadRequest(400, LoginErrors(Some(EmailInvalid), None)), [], c.buckets)
      else
        var e := email.value.s;
        if !(password.Some? && password.value.Text? && |password.value.s| > 0) then
          LoginResult(BadRequest(400, LoginErrors(None, Some(PasswordRequired))),
                      [AuditLog.LogFailedLogin(e, PasswordRequired, h, None)], c.buckets)
        else if Utf16Length(password.value.s) < MinPasswordLength then
          LoginResult(BadRequest(400, LoginErrors(None, Some(PasswordTooShort))),
                      [AuditLog.LogFailedLogin(e, PasswordTooShortReason, h, None)], c.buckets)
        else
          match verifyLogin(e, password.value.s)
          case None =>
            LoginResult(BadRequest(400, LoginErrors(Some(InvalidCredentials), None)),
                        [AuditLog.LogFailedLogin(e, InvalidCredentialsReason, h, None)], c.buckets)
          case Some(userId) =>
            LoginResult(SessionCreated(userId, redirectTo),
                        [AuditLog.LogSuccessfulLogin(userId, h)], c.buckets)
  }

  /** A refused request never depends on the form: it is answered before
      the form is read. */
  lemma ThrottleIgnoresForm(buckets: RateLimiter.Buckets, h: Headers, now: int, isProduction: bool,
                            f1: FormData, f2: FormData, validateEmail: string -> bool,
                            verifyLogin: (string, string) -> Option<string>,
                            safeRedirect: (Option<FormValue>, string) -> string)
    requires Action(buckets, h, now, isProduction, f1, validateEmail, verifyLogin, safeRedirect)
             .response.Throttled?
    ensures Action(buckets, h, now, isProduction, f1, validateEmail, verifyLogin, safeRedirect)
            == Action(buckets, h, now, isProduction, f2, validateEmail, verifyLogin, safeRedirect)
  {
  }

  /** Outside production nothing is throttled, and the one audit record
      of a request past the email check says success exactly when a
      session is created. */
  lemma LogAgreesWithOutcome(buckets: RateLimiter.Buckets, h: Headers, now: int, isProduction: bool,
                             form: FormData, validateEmail: string -> bool,
                             verifyLogin: (string, string) -> Option<string>,
                             safeRedirect: (Option<FormValue>, string) -> string)
    ensures var r := Action(buckets, h, now, isProduction, form, validateEmail, verifyLogin, safeRedirect);
            && (!isProduction ==> !r.response.Throttled? && r.buckets == buckets)
            && (|r.logs| == 1 ==> (r.logs[0].status == AuditLog.Success <==> r.response.SessionCreated?))
            && (forall i :: 0 <= i < |r.logs| ==> r.logs[i].action == AuditLog.Login)
  {
  }

  /** A password of exactly eight characters passes the length check; one
      of seven is refused. An astral character counts as two. */
  lemma EightIsEnough()
    ensures PasswordPresent(map["password" := Text("12345678")])
            && PasswordLongEnough(map["password" := Text("12345678")])
    ensures !PasswordLongEnough(map["password" := Text("1234567")])
    ensures PasswordLongEnough(map["password" := Text("\U{1F600}\U{1F600}\U{1F600}\U{1F600}")])
    ensures PasswordLongEnough(map["password" := Text("abcdef\U{1F600}")])
  {
    Utf16LengthBmp("12345678");
    Utf16LengthBmp("1234567");
    Utf16LengthAstral("\U{1F600}\U{1F600}\U{1F600}\U{1F600}");
    Utf16LengthBmp("abcdef");
    Utf16LengthAstral("\U{1F600}");
    Utf16LengthAppend("abcdef", "\U{1F600}");
  }

  /** The audit address and the limiter key agree for a single forwarded
      address with no surrounding space. */
  lemma AuditAddressMatchesLimiterKey(h: Headers)
    requires Truthy(Header(h, "x-forwarded-for"))
    requires ',' !in h["x-forwarded-for"]
    requires AuditLog.Trim(h["x-forwarded-for"]) == h["x-forwarded-for"]
    ensures AuditLog.GetClientIp(h) == Some(RateLimiter.GetIP(h))
  {
    AuditLog.ClientIpFirstHop(h);
  }

  /** For a forwarded chain they differ: the limiter keys on the whole
      chain while the audit record keeps the first hop. */
  lemma AuditAddressDiffersOnChain()
    ensures var chain := map["x-forwarded-for" := "1.1.1.1, 2.2.2.2"];
            && RateLimiter.GetIP(chain) == "1.1.1.1, 2.2.2.2"
            && AuditLog.GetClientIp(chain) == Some("1.1.1.1")
  {
    ChainFirstSegment();
    AddressTrimmed();
  }

  lemma ChainFirstSegment()
    ensures AuditLog.FirstSegment("1.1.1.1, 2.2.2.2") == "1.1.1.1"
  {
    var v := "1.1.1.1, 2.2.2.2";
    assert forall k :: 0 <= k < 7 ==> v[k] != ',';
    assert v[7] == ',';
  }

  lemma AddressTrimmed()
    ensures AuditLog.Trim("1.1.1.1") == "1.1.1.1"
  {
    var seg := "1.1.1.1";
    var t := AuditLog.Trim(seg);
    assert !AuditLog.IsTrimSpace(seg[0]) && !AuditLog.IsTrimSpace(seg[6]);
    assert AuditLog.LeadingSpace(seg) == 0;
    assert |t| == 7;
  }
}

=== FILE: rate_limiter.dfy ===
/** The per-client token-bucket rate limiter that guards the login action.
    Buckets live in a process-wide map from client key
    to bucket; refill is lazy and happens just before each admission check.
    The clock reading and the production switch are explicit inputs. */
module RateLimiter {
  import opened Base

  /** Bucket capacity: at most this many requests in a burst. */
  const RateLimit: int := 100
  /** Length of one refill tick, in milliseconds. */
  const RefillInterval: int := 10 * 1000
  /** Tokens restored per whole tick that has elapsed. */
  const TokensPerInterval: int := 16

  datatype Bucket = Bucket(tokens: int, lastRefill: int)

  type Buckets = map<string, Bucket>

  /** The response the limiter hands back when it refuses a request. */
  datatype Response = Response(status: int, body: string)

  const TooManyRequests: Response := Response(429, "Too Many Requests")

  /** The outcome of one check: `None` lets the request continue, `Some`
      carries the refusal; `buckets` is the limiter state afterwards. */
  datatype Checked = Checked(response: Option<Response>, buckets: Buckets)

  ghost predicate ValidBucket(b: Bucket) {
    0 <= b.tokens <= RateLimit
  }

  ghost predicate AllValid(m: Buckets) {
    forall k :: k in m ==> ValidBucket(m[k])
  }

  /** The client key: the whole `x-forwarded-for` value, else
      `cf-connecting-ip`, else the literal "unknown"; an empty header value
      counts as absent. The forwarded chain is not split. */
  function GetIP(h: Headers): (ip: string)
    ensures Truthy(Header(h, "x-forwarded-for")) ==> ip == h["x-forwarded-for"]
    ensures !Truthy(Header(h, "x-forwarded-for")) && Truthy(Header(h, "cf-connecting-ip"))
            ==> ip == h["cf-connecting-ip"]
    ensures !Truthy(Header(h, "x-forwarded-for")) && !Truthy(Header(h, "cf-connecting-ip"))
            ==> ip == "unknown"
    ensures |ip| > 0
  {
    OrElse(Header(h, "x-forwarded-for"), OrElse(Header(h, "cf-connecting-ip"), "unknown"))
  }

  /** Lazy refill: only when strictly more than one interval has passed,
      add the whole ticks' worth of tokens (capped) and restart the clock at
      `now`, dropping whatever part of a tick had accumulated. */
  function Refill(b: Bucket, now: int): (r: Bucket)
    ensures now - b.lastRefill <= RefillInterval ==> r == b
    ensures now - b.lastRefill > RefillInterval ==> r.lastRefill == now
    ensures ValidBucket(b) ==> ValidBucket(r) && b.tokens <= r.tokens
    ensures RefillInterval < now - b.lastRefill < 2 * RefillInterval
            ==> r.tokens == Min(RateLimit, b.tokens + TokensPerInterval)
    ensures 0 <= b.tokens && now - b.lastRefill >= 7 * RefillInterval ==> r.tokens == RateLimit
    ensures r.tokens == RateLimit || (r.tokens - b.tokens) % TokensPerInterval == 0
  {
    var elapsed := now - b.lastRefill;
    if elapsed > RefillInterval then
      var tokensToAdd := (elapsed / RefillInterval) * TokensPerInterval;
      Bucket(Min(RateLimit, b.tokens + tokensToAdd), now)
    else
      b
  }

  /** The exact refill: after `k` whole ticks (and less than `k + 1`), with
      more than one interval elapsed, the bucket gains `k` batches of tokens,
      capped at the limit, and its clock restarts at `now`. */
  lemma RefillAddsWholeTicks(b: Bucket, now: int, k: int)
    requires 1 <= k && k * RefillInterval <= now - b.lastRefill < (k + 1) * RefillInterval
    requires now - b.lastRefill > RefillInterval
    ensures Refill(b, now) == Bucket(Min(RateLimit, b.tokens + k * TokensPerInterval), now)
  {
  }

  /** The bucket a key would find: its own, or a full one created now. */
  function Lookup(buckets: Buckets, key: string, now: int): (b: Bucket)
    ensures key in buckets ==> b == buckets[key]
    ensures key !in buckets ==> b == Bucket(RateLimit, now)
  {
    if key in buckets then buckets[key] else Bucket(RateLimit, now)
  }

  /** One admission check. Outside production it passes without touching
      the map. Otherwise it finds or creates the key's bucket, refills it,
      and either spends one token or answers 429 with the bucket unchanged. */
  function CheckRateLimit(buckets: Buckets, h: Headers, now: int, isProduction: bool): (r: Checked)
    ensures !isProduction ==> r.response == None && r.buckets == buckets
    ensures isProduction ==> r.buckets.Keys == buckets.Keys + {GetIP(h)}
    ensures forall k :: k in buckets && (k != GetIP(h) || !isProduction)
                        ==> k in r.buckets && r.buckets[k] == buckets[k]
    ensures AllValid(buckets) ==> AllValid(r.buckets)
    ensures isProduction ==>
              var before := Refill(Lookup(buckets, GetIP(h), now), now);
              && (r.response == None <==> before.tokens > 0)
              && (r.response == None ==> r.buckets[GetIP(h)] == before.(tokens := before.tokens - 1))
              && (r.response != None ==> r.response == Some(TooManyRequests)
                                         && r.buckets[GetIP(h)] == before)
    ensures isProduction && GetIP(h) !in buckets
            ==> r.response == None && r.buckets[GetIP(h)] == Bucket(RateLimit - 1, now)
    ensures isProduction && AllValid(buckets) && r.response != None
            ==> r.buckets[GetIP(h)].tokens == 0
  {
    if !isProduction then
      Checked(None, buckets)
    else
      var ip := GetIP(h);
      var bucket := Refill(Lookup(buckets, ip, now), now);
      if bucket.tokens > 0 then
        Checked(None, buckets[ip := bucket.(tokens := bucket.tokens - 1)])
      else
        Checked(Some(TooManyRequests), buckets[ip := bucket])
  }

  /** `n` production checks with the same headers at the same instant; the
      sequence records, in order, whether each request was admitted. */
  function Burst(buckets: Buckets, h: Headers, now: int, n: nat): (r: (seq<bool>, Buckets))
    ensures |r.0| == n
    decreases n
  {
    if n == 0 then ([], buckets)
    else
      var c := CheckRateLimit(buckets, h, now, true);
      var rest := Burst(c.buckets, h, now, n - 1);
      ([c.response == None] + rest.0, rest.1)
  }

  /** `n` admissions in a row. */
  function Admitted(n: nat): (r: seq<bool>)
    ensures |r| == n
    ensures forall i :: 0 <= i < n ==> r[i]
  {
    if n == 0 then [] else [true] + Admitted(n - 1)
  }

  /** A bucket holding `t` tokens whose clock reads `now` admits the next
      `n <= t` requests at `now` and is left with `t - n`. */
  lemma {:induction false} BurstSpends(buckets: Buckets, h: Headers, now: int, t: int, n: nat)
    requires GetIP(h) in buckets && buckets[GetIP(h)] == Bucket(t, now)
    requires n <= t
    ensures Burst(buckets, h, now, n).0 == Admitted(n)
    ensures GetIP(h) in Burst(buckets, h, now, n).1
    ensures Burst(buckets, h, now, n).1[GetIP(h)] == Bucket(t - n, now)
  {
    if n > 0 {
      var c := CheckRateLimit(buckets, h, now, true);
      assert c.response == None;
      assert c.buckets[GetIP(h)] == Bucket(t - 1, now);
      BurstSpends(c.buckets, h, now, t - 1, n - 1);
      assert Admitted(n) == [true] + Admitted(n - 1);
    }
  }

  /** An empty bucket whose clock reads `now` refuses the next request. */
  lemma EmptyDenies(buckets: Buckets, h: Headers, now: int)
    requires GetIP(h) in buckets && buckets[GetIP(h)] == Bucket(0, now)
    ensures Burst(buckets, h, now, 1).0 == [false]
  {
  }

  /** With no time passing, a key never seen before gets exactly 100
      admissions and then a refusal (`n` names the 101 requests). */
  lemma FreshKeyBurst(buckets: Buckets, h: Headers, now: int, n: nat)
    requires GetIP(h) !in buckets
    requires n == RateLimit + 1
    ensures Burst(buckets, h, now, n).0 == Admitted(n - 1) + [false]
  {
    var c := CheckRateLimit(buckets, h, now, true);
    assert c.buckets[GetIP(h)] == Bucket(n - 2, now);
    BurstAfter(c.buckets, h, now, n - 2);
    AdmitThen(buckets, h, now, n - 2);
  }

  /** An admitted first request followed by `t` admissions and a refusal. */
  lemma AdmitThen(buckets: Buckets, h: Headers, now: int, t: nat)
    requires CheckRateLimit(buckets, h, now, true).response == None
    requires Burst(CheckRateLimit(buckets, h, now, true).buckets, h, now, t + 1).0
             == Admitted(t) + [false]
    ensures Burst(buckets, h, now, t + 2).0 == Admitted(t + 1) + [false]
  {
    var c := CheckRateLimit(buckets, h, now, true);
    assert Burst(buckets, h, now, t + 2).0 == [true] + Burst(c.buckets, h, now, t + 1).0;
  }

  /** A bucket holding `t` tokens at `now` admits `t` requests then refuses. */
  lemma BurstAfter(buckets: Buckets, h: Headers, now: int, t: nat)
    requires GetIP(h) in buckets && buckets[GetIP(h)] == Bucket(t, now)
    ensures Burst(buckets, h, now, t + 1).0 == Admitted(t) + [false]
  {
    var first := Burst(buckets, h, now, t);
    BurstSplit(buckets, h, now, t, 1);
    BurstSpends(buckets, h, now, t, t);
    EmptyDenies(first.1, h, now);
    assert Burst(first.1, h, now, 1).0 == [false];
    assert Burst(buckets, h, now, t + 1).0 == first.0 + [false];
  }

  /** Running `m + n` checks is running `m`, then `n` from where they left off. */
  lemma {:induction false} BurstSplit(buckets: Buckets, h: Headers, now: int, m: nat, n: nat)
    ensures var first := Burst(buckets, h, now, m);
            var second := Burst(first.1, h, now, n);
            Burst(buckets, h, now, m + n) == (first.0 + second.0, second.1)
    decreases m
  {
    if m > 0 {
      var c := CheckRateLimit(buckets, h, now, true);
      BurstSplit(c.buckets, h, now, m - 1, n);
      var first := Burst(c.buckets, h, now, m - 1);
      var second := Burst(first.1, h, now, n);
      assert Burst(buckets, h, now, m + n).0
          == [c.response == None] + Burst(c.buckets, h, now, m - 1 + n).0;
      assert [c.response == None] + (first.0 + second.0)
          == ([c.response == None] + first.0) + second.0;
    } else {
      assert [] + Burst(buckets, h, now, n).0 == Burst(buckets, h, now, n).0;
    }
  }

  /** An exhausted bucket gets nothing back at exactly one interval: the
      refill condition is strict. */
  lemma NoRefillAtExactInterval(buckets: Buckets, h: Headers, last: int)
    requires GetIP(h) in buckets && buckets[GetIP(h)] == Bucket(0, last)
    ensures CheckRateLimit(buckets, h, last + RefillInterval, true).response == Some(TooManyRequests)
  {
  }

  /** An exhausted bucket that has waited more than one tick but less than
      two admits exactly 16 requests and refuses the 17th (`n` names the 17). */
  lemma OneTickAfterExhaustion(buckets: Buckets, h: Headers, last: int, now: int, n: nat)
    requires GetIP(h) in buckets && buckets[GetIP(h)] == Bucket(0, last)
    requires RefillInterval < now - last < 2 * RefillInterval
    requires n == TokensPerInterval + 1
    ensures Burst(buckets, h, now, n).0 == Admitted(n - 1) + [false]
  {
    var c := CheckRateLimit(buckets, h, now, true);
    assert c.response == None;
    assert c.buckets[GetIP(h)] == Bucket(n - 2, now);
    BurstAfter(c.buckets, h, now, n - 2);
    AdmitThen(buckets, h, now, n - 2);
  }

  /** Because the clock restarts at `now`, a refill at 1.5 ticks followed by
      one at 2 ticks yields fewer tokens than a single refill at 2 ticks:
      partial-tick progress is lost. */
  lemma RefillLosesPartialTick()
    ensures Refill(Refill(Bucket(0, 0), 15000), 20000) == Bucket(16, 15000)
    ensures Refill(Bucket(0, 0), 20000) == Bucket(32, 20000)
  {
  }
}

=== FILE: rate_limiting_demo.dfy ===
/** The token bucket of the rate-limiting demo page. Unlike the server
    limiter it refills one token per whole 2-second tick and advances its
    clock by exactly the ticks it credited, so leftover progress toward the
    next tick is kept. State changes are modelled as pure transitions on
    `(tokens, lastRefill, dots)`; refill and the hit decision are separate
    transitions. */
module DemoBucket {
  import opened Base

  const Capacity: int := 6
  const RefillIntervalMs: int := 2 * 1000

  /** One entry on the timeline: whether that hit was let through. */
  datatype Dot = Dot(allowed: bool)

  datatype Demo = Demo(tokens: int, lastRefill: int, dots: seq<Dot>)

  ghost predicate Valid(s: Demo) {
    0 <= s.tokens <= Capacity
  }

  /** Number of allowed dots on a timeline. */
  function AllowedCount(dots: seq<Dot>): (n: nat)
    ensures n <= |dots|
  {
    if |dots| == 0 then 0
    else AllowedCount(dots[..|dots| - 1]) + (if dots[|dots| - 1].allowed then 1 else 0)
  }

  /** Credit one token per whole elapsed tick (capped) and move the clock
      forward by exactly those ticks. `Math.floor` of the quotient is
      Dafny's `/`, since the divisor is positive. */
  function RefillTokens(s: Demo, now: int): (r: Demo)
    ensures r.dots == s.dots
    ensures now - s.lastRefill < RefillIntervalMs ==> r == s
    ensures now - s.lastRefill >= 0
            ==> now - r.lastRefill == (now - s.lastRefill) % RefillIntervalMs
    ensures (r.lastRefill - s.lastRefill) % RefillIntervalMs == 0
    ensures Valid(s) ==> r.tokens == Min(Capacity, s.tokens + (r.lastRefill - s.lastRefill) / RefillIntervalMs)
    ensures Valid(s) ==> Valid(r) && s.tokens <= r.tokens
  {
    var elapsed := now - s.lastRefill;
    var tokensToAdd := elapsed / RefillIntervalMs;
    if tokensToAdd > 0 then
      var l := s.lastRefill + tokensToAdd * RefillIntervalMs;
      assert (l - s.lastRefill) / RefillIntervalMs == tokensToAdd;
      s.(tokens := Min(Capacity, s.tokens + tokensToAdd), lastRefill := l)
    else
      s
  }

  /** Whole ticks in `a` milliseconds, after `k` ticks have been taken off. */
  lemma TicksAfterTaking(a: int, k: int)
    ensures (a - k * RefillIntervalMs) / RefillIntervalMs == a / RefillIntervalMs - k
  {
    var q := a / RefillIntervalMs;
    var m := a % RefillIntervalMs;
    assert a - k * RefillIntervalMs == (q - k) * RefillIntervalMs + m;
  }

  /** Drift-freedom: refilling at `t1` and then at `t2` is the same as
      refilling once at `t2`, so no fraction of a tick is ever lost. */
  lemma {:induction false} RefillComposes(s: Demo, t1: int, t2: int)
    requires s.lastRefill <= t1 <= t2
    ensures RefillTokens(RefillTokens(s, t1), t2) == RefillTokens(s, t2)
  {
    var x := (t1 - s.lastRefill) / RefillIntervalMs;
    var total := (t2 - s.lastRefill) / RefillIntervalMs;
    var mid := RefillTokens(s, t1);
    if x > 0 {
      assert mid.lastRefill == s.lastRefill + x * RefillIntervalMs;
      TicksAfterTaking(t2 - s.lastRefill, x);
      assert t2 - mid.lastRefill == (t2 - s.lastRefill) - x * RefillIntervalMs;
      var y := (t2 - mid.lastRefill) / RefillIntervalMs;
      assert y == total - x;
      assert y >= 0 by {
        assert t2 - mid.lastRefill >= t1 - mid.lastRefill;
        assert t1 - mid.lastRefill >= 0;
      }
      assert mid.lastRefill + y * RefillIntervalMs == s.lastRefill + total * RefillIntervalMs;
      assert RefillTokens(s, t2)
          == s.(tokens := Min(Capacity, s.tokens + total),
                lastRefill := s.lastRefill + total * RefillIntervalMs);
    }
  }

  /** The hit decision, read against the token count of the current render:
      one dot is appended, allowed exactly when tokens remain, and an allowed
      hit spends one token. */
  function Hit(s: Demo): (r: Demo)
    ensures |r.dots| == |s.dots| + 1 && r.dots[..|s.dots|] == s.dots
    ensures r.dots[|s.dots|].allowed <==> s.tokens > 0
    ensures r.dots[|s.dots|].allowed ==> r.tokens == s.tokens - 1
    ensures !r.dots[|s.dots|].allowed ==> r.tokens == s.tokens
    ensures r.lastRefill == s.lastRefill
    ensures Valid(s) ==> Valid(r)
  {
    if s.tokens > 0 then
      Demo(s.tokens - 1, s.lastRefill, s.dots + [Dot(true)])
    else
      Demo(s.tokens, s.lastRefill, s.dots + [Dot(false)])
  }

  /** Each allowed dot was paid for with exactly one token. */
  lemma HitConserves(s: Demo)
    ensures AllowedCount(Hit(s).dots) + Hit(s).tokens == AllowedCount(s.dots) + s.tokens
  {
    var r := Hit(s);
    assert r.dots[..|r.dots| - 1] == s.dots;
  }

  /** `n` hits in a row with no refill in between. */
  function Hits(s: Demo, n: nat): (r: Demo)
    decreases n
  {
    if n == 0 then s else Hits(Hit(s), n - 1)
  }

  /** From a valid state, `n` hits let exactly `min(n, tokens)` through. */
  lemma {:induction false} HitsAllowMin(s: Demo, n: nat)
    requires Valid(s)
    ensures AllowedCount(Hits(s, n).dots) == AllowedCount(s.dots) + Min(n, s.tokens)
    ensures Hits(s, n).tokens == s.tokens - Min(n, s.tokens)
    ensures |Hits(s, n).dots| == |s.dots| + n
    decreases n
  {
    if n > 0 {
      HitConserves(s);
      HitsAllowMin(Hit(s), n - 1);
    }
  }

  /** Back to a full bucket with an empty timeline and the clock at `now`;
      this is also the hook's initial state. */
  function Reset(now: int): (r: Demo)
    ensures Valid(r) && r.tokens == Capacity
    ensures r.dots == [] && r.lastRefill == now
  {
    Demo(Capacity, now, [])
  }

  /** After a reset, `n` hits admit exactly `min(n, 6)` of them. */
  lemma ResetThenHits(now: int, n: nat)
    ensures AllowedCount(Hits(Reset(now), n).dots) == Min(n, Capacity)
    ensures |Hits(Reset(now), n).dots| == n
  {
    HitsAllowMin(Reset(now), n);
  }

  /** Index of the dot to animate: the last one, or -1 on an empty timeline. */
  function LatestIndex(s: Demo): int
  {
    |s.dots| - 1
  }

  /** The animated dot is always the one the latest hit appended. */
  lemma LatestIsNewest(s: Demo, now: int)
    ensures LatestIndex(Hit(s)) == |s.dots|
    ensures Hit(s).dots[LatestIndex(Hit(s))].allowed <==> s.tokens > 0
    ensures LatestIndex(Reset(now)) == -1
    ensures LatestIndex(RefillTokens(s, now)) == LatestIndex(s)
  {
  }
}

=== FILE: status_action.dfy ===
/** The status buttons on a task's page. Each button is a small form that
    posts intent "update-status" with a target status; which buttons appear
    depends only on the current status. */
module StatusAction {

  const Todo: string := "todo"
  const InProgress: string := "in_progress"
  const Done: string := "done"
  const UpdateStatusIntent: string := "update-status"

  /** One posted form: its hidden `intent` and `status` fields. */
  datatype StatusForm = StatusForm(intent: string, status: string)

  /** Position on the Todo -> In Progress -> Done workflow, if the status
      is one of the three. */
  function Stage(status: string): (r: int)
    ensures -1 <= r <= 2
  {
    if status == Todo then 0
    else if status == InProgress then 1
    else if status == Done then 2
    else -1
  }

  /** The buttons offered for a status, in display order. */
  function StatusActions(status: string): (r: seq<StatusForm>)
    ensures status == Todo ==> r == [StatusForm(UpdateStatusIntent, InProgress)]
    ensures status == InProgress
            ==> r == [StatusForm(UpdateStatusIntent, Todo), StatusForm(UpdateStatusIntent, Done)]
    ensures status == Done ==> r == [StatusForm(UpdateStatusIntent, InProgress)]
    ensures Stage(status) == -1 ==> r == []
    ensures forall i :: 0 <= i < |r| ==> r[i].intent == UpdateStatusIntent
    ensures forall i :: 0 <= i < |r| ==> r[i].status != status && Stage(r[i].status) != -1
  {
    if status == Todo then
      [StatusForm(UpdateStatusIntent, InProgress)]
    else if status == InProgress then
      [StatusForm(UpdateStatusIntent, Todo), StatusForm(UpdateStatusIntent, Done)]
    else if status == Done then
      [StatusForm(UpdateStatusIntent, InProgress)]
    else
      []
  }

  /** The buttons are exactly the moves to a neighbouring stage: one step
      forward or back, never a skip from Todo straight to Done or back. */
  lemma OffersExactlyNeighbours(from: string, to: string)
    ensures StatusForm(UpdateStatusIntent, to) in StatusActions(from)
            <==> Stage(from) != -1 && Stage(to) != -1
                 && (Stage(to) == Stage(from) + 1 || Stage(to) == Stage(from) - 1)
  {
  }

  /** Todo and Done are never offered from one another. */
  lemma TodoDoneNotAdjacent()
    ensures forall f :: f in StatusActions(Todo) ==> f.status != Done
    ensures forall f :: f in StatusActions(Done) ==> f.status != Todo
  {
  }

  /** The status update the task page accepts: only the three known
      statuses; anything else is ignored. */
  predicate AcceptedStatus(status: string) {
    status == Todo || status == InProgress || status == Done
  }

  /** Every button the page shows posts a status the page's action accepts. */
  lemma OfferedStatusesAccepted(from: string)
    ensures forall f :: f in StatusActions(from) ==> AcceptedStatus(f.status)
  {
  }
}

=== FILE: task_detail.dfy ===
/** The task page ties the pieces together: it fetches the task for the
    caller, resolves their access level, and shows the status buttons and
    the footer controls only to an owner or an editor. The lemma below
    shows that what the page offers is exactly what the task model lets the
    caller do. */
module TaskDetail {
  import opened Base
  import opened Tasks
  import StatusAction
  import TaskFooter

  datatype Page =
    | NotFound
    | Shown(task: Task, level: string, moves: seq<StatusAction.StatusForm>,
            footer: seq<TaskFooter.FooterControl>)

  /** What the caller sees on the page of task `id`. */
  function TaskPage(st: Store, id: TaskId, u: UserId): (r: Page)
    requires Valid(st)
    ensures r.NotFound? <==> GetTask(st, id, u).None?
    ensures r.Shown? ==> r.task == st.tasks[id] && AccessLevel(st, id, u) == Ok(r.level)
    ensures r.Shown? && r.level != OwnerLevel && r.level != EditorLevel
            ==> r.moves == [] && r.footer == []
    ensures r.Shown? && (r.level == OwnerLevel || r.level == EditorLevel)
            ==> r.moves == StatusAction.StatusActions(r.task.status)
                && r.footer == TaskFooter.TaskFooterButtons(id, Some(r.level), None)
  {
    match GetTask(st, id, u)
    case None => NotFound
    case Some(t) =>
      GetTaskIffAccess(st, id, u);
      var level := AccessLevel(st, id, u).value;
      if level == OwnerLevel || level == EditorLevel then
        Shown(t, level, StatusAction.StatusActions(t.status),
              TaskFooter.TaskFooterButtons(id, Some(level), None))
      else
        Shown(t, level, [], [])
  }

  /** The page offers Edit and the status moves exactly to those who may
      edit, and Share and Delete exactly to the owner, for whom the delete
      takes effect; each offered move is accepted by the status update. */
  lemma PageMatchesGates(st: Store, id: TaskId, u: UserId, now: int)
    requires Valid(st) && KnownLevels(st)
    requires TaskPage(st, id, u).Shown?
    ensures var p := TaskPage(st, id, u);
            && (TaskFooter.EditLink(TaskFooter.EditHref(id)) in p.footer <==> CanEdit(st, id, u))
            && (TaskFooter.ShareLink(TaskFooter.ShareHref(id)) in p.footer <==> IsOwner(st, id, u))
            && (TaskFooter.DeleteForm(TaskFooter.DeleteIntent) in p.footer <==> IsOwner(st, id, u))
            && (TaskFooter.DeleteForm(TaskFooter.DeleteIntent) in p.footer
                <==> DeleteTask(st, id, u).count == 1)
            && (p.moves != [] ==> CanEdit(st, id, u))
            && (forall m :: m in p.moves ==> UpdateTaskStatus(st, id, u, m.status, now).Ok?)
  {
    CanEditIffOwnerOrEditor(st, id, u);
  }

  /** Without the known-levels condition the gates come apart: a grant
      whose level is the string "owner" makes the page offer Delete and the
      status moves to a user whose delete removes nothing and whose status
      update is refused. */
  lemma ForgedOwnerSeesDelete(now: int)
    ensures var st := Store(map["t" := Task("a", "x", None, "bg-white", "todo", 0)],
                            map[("t", "b") := Grant(OwnerLevel, 0)], {"a", "b"});
            var p := TaskPage(st, "t", "b");
            && p.Shown? && p.level == OwnerLevel
            && TaskFooter.DeleteForm(TaskFooter.DeleteIntent) in p.footer
            && DeleteTask(st, "t", "b").count == 0
            && p.moves != []
            && UpdateTaskStatus(st, "t", "b", p.moves[0].status, now).Err?
  {
    var st := Store(map["t" := Task("a", "x", None, "bg-white", "todo", 0)],
                    map[("t", "b") := Grant(OwnerLevel, 0)], {"a", "b"});
    assert Valid(st);
    var footer := TaskFooter.TaskFooterButtons("t", Some(OwnerLevel), None);
    assert TaskFooter.DeleteForm(TaskFooter.DeleteIntent) in footer;
  }
}

=== FILE: task_footer_buttons.dfy ===
/** The footer controls on a task's page: an Edit link, a Share link and a
    Delete form, gated by the caller's access level and an edit flag. */
module TaskFooter {
  import opened Base

  datatype FooterControl =
    | EditLink(href: string)
    | ShareLink(href: string)
    | DeleteForm(intent: string)

  const DeleteIntent: string := "delete"

  function EditHref(taskId: string): string { "/tasks/" + taskId + "/edit" }
  function ShareHref(taskId: string): string { "/tasks/" + taskId + "/share" }

  /** The controls shown, each at most once. An omitted `accessLevel` means
      "owner" and an omitted `canEdit` means true. Edit follows `canEdit`
      alone; Share and Delete appear only for the owner. */
  function TaskFooterButtons(taskId: string, accessLevel: Option<string>, canEdit: Option<bool>)
    : (r: seq<FooterControl>)
    ensures EditLink(EditHref(taskId)) in r <==> canEdit.GetOr(true)
    ensures ShareLink(ShareHref(taskId)) in r <==> accessLevel.GetOr("owner") == "owner"
    ensures DeleteForm(DeleteIntent) in r <==> accessLevel.GetOr("owner") == "owner"
    ensures forall c :: c in r ==> c in [EditLink(EditHref(taskId)), ShareLink(ShareHref(taskId)),
                                          DeleteForm(DeleteIntent)]
    ensures |r| <= 3
    ensures forall i, j :: 0 <= i < j < |r| ==> r[i] != r[j]
  {
    var level := accessLevel.GetOr("owner");
    var edit := canEdit.GetOr(true);
    var isOwner := level == "owner";
    (if edit then [EditLink(EditHref(taskId))] else [])
    + (if isOwner then [ShareLink(ShareHref(taskId))] else [])
    + (if isOwner then [DeleteForm(DeleteIntent)] else [])
  }

  /** Called with no arguments the footer shows all three controls. */
  lemma DefaultsShowEverything(taskId: string)
    ensures TaskFooterButtons(taskId, None, None)
            == [EditLink(EditHref(taskId)), ShareLink(ShareHref(taskId)), DeleteForm(DeleteIntent)]
  {
  }

  /** A non-owner is never offered Delete or Share, whatever `canEdit` says. */
  lemma NonOwnerNeverDeletes(taskId: string, level: string, canEdit: Option<bool>)
    requires level != "owner"
    ensures forall c :: c in TaskFooterButtons(taskId, Some(level), canEdit) ==> c.EditLink?
  {
  }
}

=== FILE: task_server.dfy ===
/** Task ownership and sharing. The database behind the task model is an
    in-memory store: tasks by id, access grants keyed by `(taskId, userId)`
    (the schema's compound unique key, so at most one grant per pair), and
    the set of existing users. Every operation is a pure transition that
    returns the new store or the error the model raises. */
module Tasks {
  import opened Base

  type TaskId = string
  type UserId = string

  datatype Task = Task(owner: UserId, title: string, body: Option<string>,
                       color: string, status: string, updatedAt: int)

  /** A share of a task with one user. The level is stored as given by the
      share form, normally "viewer" or "editor". */
  datatype Grant = Grant(level: string, grantedAt: int)

  datatype Store = Store(tasks: map<TaskId, Task>,
                         grants: map<(TaskId, UserId), Grant>,
                         users: set<UserId>)

  const OwnerLevel: string := "owner"
  const EditorLevel: string := "editor"
  const ViewerLevel: string := "viewer"

  datatype TaskError =
    | InsufficientToUpdate
    | InsufficientToUpdateStatus
    | SelfShare
    | TaskNotFound
    | TargetUserNotFound
    | NoAccess

  /** The message each error is raised with. */
  function Message(e: TaskError): (m: string)
    ensures e == InsufficientToUpdate ==> m == "Insufficient permissions to update this task"
    ensures e == InsufficientToUpdateStatus ==> m == "Insufficient permissions to update this task status"
    ensures e == SelfShare ==> m == "Cannot share a task with yourself"
    ensures e == TaskNotFound ==> m == "Task not found"
    ensures e == TargetUserNotFound ==> m == "Target user not found"
    ensures e == NoAccess ==> m == "You don't have access to this task"
    ensures |m| > 0
  {
    match e
    case InsufficientToUpdate => "Insufficient permissions to update this task"
    case InsufficientToUpdateStatus => "Insufficient permissions to update this task status"
    case SelfShare => "Cannot share a task with yourself"
    case TaskNotFound => "Task not found"
    case TargetUserNotFound => "Target user not found"
    case NoAccess => "You don't have access to this task"
  }

  /** A caller can tell every error apart by its message alone. */
  lemma MessagesDistinct(a: TaskError, b: TaskError)
    requires a != b
    ensures Message(a) != Message(b)
  {
  }

  datatype Result<+T> = Ok(value: T) | Err(error: TaskError)

  /** Referential integrity the database enforces: owners and grantees are
      users, and every grant names an existing task. */
  ghost predicate Valid(st: Store) {
    && (forall id :: id in st.tasks ==> st.tasks[id].owner in st.users)
    && (forall p :: p in st.grants ==> p.0 in st.tasks && p.1 in st.users)
  }

  /** Nobody holds a grant on a task they own. */
  ghost predicate NoSelfGrant(st: Store) {
    forall p :: p in st.grants && p.0 in st.tasks ==> st.tasks[p.0].owner != p.1
  }

  /** Every stored level is one the share form offers. */
  ghost predicate KnownLevels(st: Store) {
    forall p :: p in st.grants ==> st.grants[p].level in {ViewerLevel, EditorLevel}
  }

  predicate IsOwner(st: Store, id: TaskId, u: UserId) {
    id in st.tasks && st.tasks[id].owner == u
  }

  predicate HasGrant(st: Store, id: TaskId, u: UserId) {
    (id, u) in st.grants
  }

  /** Who may change a task: its owner, or a holder of an "editor" grant. */
  predicate CanEdit(st: Store, id: TaskId, u: UserId) {
    IsOwner(st, id, u) || (HasGrant(st, id, u) && st.grants[(id, u)].level == EditorLevel)
  }

  /** Fetch a task for a user: owned tasks first, then tasks shared with
      them at any level; `None` otherwise. */
  function GetTask(st: Store, id: TaskId, u: UserId): (r: Option<Task>)
    ensures r.Some? <==> id in st.tasks && (st.tasks[id].owner == u || (id, u) in st.grants)
    ensures r.Some? ==> r.value == st.tasks[id]
  {
    if IsOwner(st, id, u) then Some(st.tasks[id])
    else if id in st.tasks && HasGrant(st, id, u) then Some(st.tasks[id])
    else None
  }

  /** Effective access level: "owner" for the owner, whatever grant they may
      also hold; otherwise the grant's level; otherwise an access error. */
  function AccessLevel(st: Store, id: TaskId, u: UserId): (r: Result<string>)
    ensures IsOwner(st, id, u) ==> r == Ok(OwnerLevel)
    ensures !IsOwner(st, id, u) && HasGrant(st, id, u) ==> r == Ok(st.grants[(id, u)].level)
    ensures r.Err? <==> !IsOwner(st, id, u) && !HasGrant(st, id, u)
    ensures r.Err? ==> r.error == NoAccess
  {
    if IsOwner(st, id, u) then Ok(OwnerLevel)
    else if HasGrant(st, id, u) then Ok(st.grants[(id, u)].level)
    else Err(NoAccess)
  }

  /** In a consistent store a user can fetch a task exactly when an access
      level resolves for them. */
  lemma GetTaskIffAccess(st: Store, id: TaskId, u: UserId)
    requires Valid(st)
    ensures GetTask(st, id, u).Some? <==> AccessLevel(st, id, u).Ok?
  {
  }

  /** With only viewer/editor grants stored, the edit gate is exactly
      "resolves to owner or editor". */
  lemma CanEditIffOwnerOrEditor(st: Store, id: TaskId, u: UserId)
    requires KnownLevels(st)
    ensures CanEdit(st, id, u) <==> AccessLevel(st, id, u) in {Ok(OwnerLevel), Ok(EditorLevel)}
  {
    if !IsOwner(st, id, u) && HasGrant(st, id, u) {
      assert st.grants[(id, u)].level in {ViewerLevel, EditorLevel};
    }
  }

  /** The level is stored unchecked, so a grant whose level reads "owner"
      resolves to "owner" while the holder still may not edit. */
  lemma ForgedOwnerGrant()
    ensures var st := Store(map["t" := Task("a", "x", None, "bg-white", "todo", 0)],
                            map[("t", "b") := Grant(OwnerLevel, 0)], {"a", "b"});
            AccessLevel(st, "t", "b") == Ok(OwnerLevel) && !CanEdit(st, "t", "b")
  {
  }

  /** The store with task `id` replaced, nothing else touched. */
  function WithTask(st: Store, id: TaskId, t: Task): Store {
    st.(tasks := st.tasks[id := t])
  }

  /** Update every editable field of a task. Owner or editor only. */
  function UpdateTask(st: Store, id: TaskId, u: UserId, title: string, body: Option<string>,
                      color: string, status: string, now: int): (r: Result<Store>)
    requires Valid(st)
    ensures r.Ok? <==> CanEdit(st, id, u)
    ensures r.Err? ==> r.error == InsufficientToUpdate
    ensures r.Ok? ==> id in st.tasks && id in r.value.tasks
                      && r.value.tasks[id] == Task(st.tasks[id].owner, title, body, color, status, now)
    ensures r.Ok? ==> r.value.tasks.Keys == st.tasks.Keys
                      && r.value.grants == st.grants && r.value.users == st.users
    ensures r.Ok? ==> forall k :: k in st.tasks && k != id ==> r.value.tasks[k] == st.tasks[k]
    ensures r.Ok? ==> Valid(r.value) && (NoSelfGrant(st) ==> NoSelfGrant(r.value))
  {
    if IsOwner(st, id, u) || (HasGrant(st, id, u) && st.grants[(id, u)].level == EditorLevel) then
      var t := st.tasks[id];
      Ok(WithTask(st, id, t.(title := title, body := body, color := color,
                              status := status, updatedAt := now)))
    else
      Err(InsufficientToUpdate)
  }

  /** Move a task to another status. Owner or editor only; only `status`
      and `updatedAt` change. */
  function UpdateTaskStatus(st: Store, id: TaskId, u: UserId, status: string, now: int): (r: Result<Store>)
    requires Valid(st)
    ensures r.Ok? <==> CanEdit(st, id, u)
    ensures r.Err? ==> r.error == InsufficientToUpdateStatus
    ensures r.Ok? ==> id in st.tasks && id in r.value.tasks
                      && var before, after := st.tasks[id], r.value.tasks[id];
                      && after.status == status && after.updatedAt == now
                      && after.title == before.title && after.body == before.body
                      && after.color == before.color && after.owner == before.owner
    ensures r.Ok? ==> r.value.tasks.Keys == st.tasks.Keys
                      && r.value.grants == st.grants && r.value.users == st.users
    ensures r.Ok? ==> forall k :: k in st.tasks && k != id ==> r.value.tasks[k] == st.tasks[k]
    ensures r.Ok? ==> Valid(r.value) && (NoSelfGrant(st) ==> NoSelfGrant(r.value))
  {
    if IsOwner(st, id, u) || (HasGrant(st, id, u) && st.grants[(id, u)].level == EditorLevel) then
      Ok(WithTask(st, id, st.tasks[id].(status := status, updatedAt := now)))
    else
      Err(InsufficientToUpdateStatus)
  }

  /** A viewer or a stranger cannot change anything. */
  lemma ViewerCannotChange(st: Store, id: TaskId, u: UserId, status: string, now: int)
    requires Valid(st) && KnownLevels(st)
    requires AccessLevel(st, id, u) == Ok(ViewerLevel) || AccessLevel(st, id, u).Err?
    ensures UpdateTaskStatus(st, id, u, status, now) == Err(InsufficientToUpdateStatus)
    ensures forall title, body, color, s ::
              UpdateTask(st, id, u, title, body, color, s, now) == Err(InsufficientToUpdate)
  {
    CanEditIffOwnerOrEditor(st, id, u);
  }

  /** The result of a deletion: the new store and how many tasks went. */
  datatype Deleted = Deleted(store: Store, count: nat)

  /** Delete a task the caller owns, with the grants on it. Anyone else
      deletes nothing and gets no error. */
  function DeleteTask(st: Store, id: TaskId, u: UserId): (r: Deleted)
    ensures r.count == 1 <==> IsOwner(st, id, u)
    ensures r.count == 0 ==> r.store == st
    ensures !IsOwner(st, id, u) ==> r == Deleted(st, 0)
    ensures IsOwner(st, id, u) ==>
              && r.store.tasks == st.tasks - {id}
              && r.store.users == st.users
              && (forall p :: p in r.store.grants <==> p in st.grants && p.0 != id)
              && (forall p :: p in r.store.grants ==> r.store.grants[p] == st.grants[p])
    ensures Valid(st) ==> Valid(r.store)
    ensures NoSelfGrant(st) ==> NoSelfGrant(r.store)
  {
    if IsOwner(st, id, u) then
      var grants := map p | p in st.grants && p.0 != id :: st.grants[p];
      Deleted(Store(st.tasks - {id}, grants, st.users), 1)
    else
      Deleted(st, 0)
  }

  /** Share a task. Errors come in a fixed order: sharing with oneself
      first (whoever asks), then a caller who does not own the task, then a
      target who is not a user. Otherwise the grant for `(taskId, target)`
      is created or overwritten with the new level and time. */
  function ShareTaskWithUser(st: Store, taskId: TaskId, ownerId: UserId, target: UserId,
                             level: string, now: int): (r: Result<Store>)
    ensures ownerId == target ==> r == Err(SelfShare)
    ensures ownerId != target && !IsOwner(st, taskId, ownerId) ==> r == Err(TaskNotFound)
    ensures ownerId != target && IsOwner(st, taskId, ownerId) && target !in st.users
            ==> r == Err(TargetUserNotFound)
    ensures r.Ok? <==> ownerId != target && IsOwner(st, taskId, ownerId) && target in st.users
    ensures r.Ok? ==> && r.value.tasks == st.tasks && r.value.users == st.users
                      && r.value.grants.Keys == st.grants.Keys + {(taskId, target)}
                      && r.value.grants[(taskId, target)] == Grant(level, now)
                      && (forall p :: p in st.grants && p != (taskId, target)
                                      ==> r.value.grants[p] == st.grants[p])
    ensures r.Ok? && Valid(st) ==> Valid(r.value)
    ensures r.Ok? && NoSelfGrant(st) ==> NoSelfGrant(r.value)
  {
    if ownerId == target then Err(SelfShare)
    else if !IsOwner(st, taskId, ownerId) then Err(TaskNotFound)
    else if target !in st.users then Err(TargetUserNotFound)
    else Ok(st.(grants := st.grants[(taskId, target) := Grant(level, now)]))
  }

  /** After a successful share the target resolves to the shared level. */
  lemma SharedLevelResolves(st: Store, taskId: TaskId, ownerId: UserId, target: UserId,
                            level: string, now: int)
    requires ShareTaskWithUser(st, taskId, ownerId, target, level, now).Ok?
    ensures var st' := ShareTaskWithUser(st, taskId, ownerId, target, level, now).value;
            AccessLevel(st', taskId, target) == Ok(level)
  {
  }

  /** Re-sharing overwrites: two shares of the same pair leave one grant,
      carrying the later level and time, and nothing else differs from a
      single share with the later values. */
  lemma ReshareOverwrites(st: Store, taskId: TaskId, ownerId: UserId, target: UserId,
                          l1: string, t1: int, l2: string, t2: int)
    requires ShareTaskWithUser(st, taskId, ownerId, target, l1, t1).Ok?
    ensures var once := ShareTaskWithUser(st, taskId, ownerId, target, l1, t1).value;
            ShareTaskWithUser(once, taskId, ownerId, target, l2, t2)
            == ShareTaskWithUser(st, taskId, ownerId, target, l2, t2)
  {
    var once := ShareTaskWithUser(st, taskId, ownerId, target, l1, t1).value;
    assert once.grants[(taskId, target) := Grant(l2, t2)]
        == st.grants[(taskId, target) := Grant(l2, t2)];
  }

  /** The result of a revocation: the new store and how many grants went. */
  datatype Removed = Removed(store: Store, count: nat)

  /** Revoke a user's grant on a task the caller owns. A missing grant is
      a silent no-op; a caller who does not own the task gets an error. */
  function RemoveTaskAccess(st: Store, taskId: TaskId, ownerId: UserId, target: UserId): (r: Result<Removed>)
    ensures r.Err? <==> !IsOwner(st, taskId, ownerId)
    ensures r.Err? ==> r.error == TaskNotFound
    ensures r.Ok? ==> && r.value.store.tasks == st.tasks && r.value.store.users == st.users
                      && r.value.store.grants.Keys == st.grants.Keys - {(taskId, target)}
                      && (forall p :: p in r.value.store.grants ==> r.value.store.grants[p] == st.grants[p])
                      && (r.value.count == 1 <==> (taskId, target) in st.grants)
                      && r.value.count == (if (taskId, target) in st.grants then 1 else 0)
                      && (r.value.count == 0 ==> r.value.store == st)
    ensures r.Ok? && Valid(st) ==> Valid(r.value.store)
    ensures r.Ok? && NoSelfGrant(st) ==> NoSelfGrant(r.value.store)
  {
    if !IsOwner(st, taskId, ownerId) then Err(TaskNotFound)
    else if (taskId, target) in st.grants then
      Ok(Removed(st.(grants := st.grants - {(taskId, target)}), 1))
    else
      Ok(Removed(st, 0))
  }

  /** Revoking undoes a first-time share. */
  lemma RemoveUndoesShare(st: Store, taskId: TaskId, ownerId: UserId, target: UserId,
                          level: string, now: int)
    requires (taskId, target) !in st.grants
    requires ShareTaskWithUser(st, taskId, ownerId, target, level, now).Ok?
    ensures var st' := ShareTaskWithUser(st, taskId, ownerId, target, level, now).value;
            RemoveTaskAccess(st', taskId, ownerId, target) == Ok(Removed(st, 1))
  {
    var st' := ShareTaskWithUser(st, taskId, ownerId, target, level, now).value;
    assert st'.grants - {(taskId, target)} == st.grants;
  }

  /** The users a task is shared with, for its owner only. */
  function GetTaskAccessUsers(st: Store, taskId: TaskId, u: UserId): (r: Result<map<UserId, Grant>>)
    ensures r.Err? <==> !IsOwner(st, taskId, u)
    ensures r.Err? ==> r.error == TaskNotFound
    ensures r.Ok? ==> forall v :: v in r.value <==> (taskId, v) in st.grants
    ensures r.Ok? ==> forall v :: v in r.value ==> r.value[v] == st.grants[(taskId, v)]
    ensures r.Ok? && NoSelfGrant(st) ==> u !in r.value
  {
    if !IsOwner(st, taskId, u) then Err(TaskNotFound)
    else
      Ok(map p | p in st.grants && p.0 == taskId :: p.1 := st.grants[p])
  }

  /** The owner's access list follows sharing: a share puts the target on
      it with the new grant, and removing the target's access takes them off
      again while everyone else stays listed. */
  lemma AccessUsersTrackSharing(st: Store, taskId: TaskId, ownerId: UserId, target: UserId,
                                level: string, now: int)
    requires ShareTaskWithUser(st, taskId, ownerId, target, level, now).Ok?
    ensures var shared := ShareTaskWithUser(st, taskId, ownerId, target, level, now).value;
            var listed := GetTaskAccessUsers(shared, taskId, ownerId);
            && listed.Ok? && target in listed.value && listed.value[target] == Grant(level, now)
            && var removed := RemoveTaskAccess(shared, taskId, ownerId, target);
            && removed.Ok? && removed.value.count == 1
            && var after := GetTaskAccessUsers(removed.value.store, taskId, ownerId);
            && after.Ok? && target !in after.value
            && (forall v :: v in listed.value && v != target ==> v in after.value)
  {
  }

  /** The task list of a user: the ids they own, and the ids shared with
      them, each with the level shown (an empty stored level shows as
      "viewer"). */
  datatype TaskList = TaskList(owned: set<TaskId>, shared: map<TaskId, string>)

  function ListedLevel(g: Grant): (l: string)
    ensures |l| > 0
    ensures |g.level| > 0 ==> l == g.level
    ensures |g.level| == 0 ==> l == ViewerLevel
  {
    OrElse(Some(g.level), ViewerLevel)
  }

  function GetTaskListItems(st: Store, u: UserId): (r: TaskList)
    ensures forall id :: id in r.owned <==> IsOwner(st, id, u)
    ensures forall id :: id in r.shared <==> id in st.tasks && HasGrant(st, id, u)
    ensures forall id :: id in r.shared ==> HasGrant(st, id, u) && r.shared[id] == ListedLevel(st.grants[(id, u)])
    ensures NoSelfGrant(st) ==> r.owned !! r.shared.Keys
  {
    var owned := set id | id in st.tasks && st.tasks[id].owner == u;
    var shared := map id | id in st.tasks && (id, u) in st.grants :: ListedLevel(st.grants[(id, u)]);
    TaskList(owned, shared)
  }

  /** The list agrees with access resolution: owned ids resolve to "owner"
      and shared ids to their listed level whenever that level is set. */
  lemma ListAgreesWithAccess(st: Store, u: UserId, id: TaskId)
    ensures id in GetTaskListItems(st, u).owned ==> AccessLevel(st, id, u) == Ok(OwnerLevel)
    ensures NoSelfGrant(st) && id in GetTaskListItems(st, u).shared
            && |st.grants[(id, u)].level| > 0
            ==> AccessLevel(st, id, u) == Ok(GetTaskListItems(st, u).shared[id])
  {
  }

  /** Create a task under a fresh id chosen by the database. */
  function CreateTask(st: Store, id: TaskId, title: string, body: Option<string>, color: string,
                      status: string, u: UserId, now: int): (r: Store)
    requires id !in st.tasks && u in st.users
    ensures r.tasks.Keys == st.tasks.Keys + {id}
    ensures r.tasks[id] == Task(u, title, body, color, status, now)
    ensures forall k :: k in st.tasks ==> r.tasks[k] == st.tasks[k]
    ensures r.grants == st.grants && r.users == st.users
    ensures IsOwner(r, id, u) && !HasGrant(r, id, u) <== Valid(st)
    ensures Valid(st) ==> Valid(r) && (NoSelfGrant(st) ==> NoSelfGrant(r))
  {
    st.(tasks := st.tasks[id := Task(u, title, body, color, status, now)])
  }
}

=== FILE: tasks_index.dfy ===
/** The task board: the list is split into a Todo, an In Progress and a
    Done lane by exact status match, each lane keeping list order. */
module Lanes {
  import Tasks
  import StatusAction

  datatype Swimlanes = Swimlanes(todo: seq<Tasks.Task>, inProgress: seq<Tasks.Task>,
                                 done: seq<Tasks.Task>)

  /** `a` can be obtained from `b` by deleting elements. */
  predicate Subsequence<T(==)>(a: seq<T>, b: seq<T>)
    decreases |b|
  {
    if |a| == 0 then true
    else if |b| == 0 then false
    else if a[0] == b[0] then Subsequence(a[1..], b[1..])
    else Subsequence(a, b[1..])
  }

  /** Tasks in `tasks` with exactly the given status. */
  function CountStatus(tasks: seq<Tasks.Task>, status: string): (n: nat)
    ensures n <= |tasks|
  {
    if |tasks| == 0 then 0
    else (if tasks[0].status == status then 1 else 0) + CountStatus(tasks[1..], status)
  }

  /** The tasks whose status is `status`, in list order: every kept task
      has that status, and there are as many as the list holds. */
  function Filter(tasks: seq<Tasks.Task>, status: string): (r: seq<Tasks.Task>)
    ensures forall i :: 0 <= i < |r| ==> r[i].status == status
    ensures |r| == CountStatus(tasks, status)
  {
    if |tasks| == 0 then []
    else
      var rest := Filter(tasks[1..], status);
      if tasks[0].status == status then [tasks[0]] + rest else rest
  }

  /** Every task with the lane's status is kept, as often as it occurs in
      the list, and the lane keeps list order. */
  lemma {:induction false} FilterKeepsMatches(tasks: seq<Tasks.Task>, status: string)
    ensures var r := Filter(tasks, status);
            && (forall t: Tasks.Task :: t.status == status ==> multiset(r)[t] == multiset(tasks)[t])
            && Subsequence(r, tasks)
  {
    if |tasks| > 0 {
      var rest := Filter(tasks[1..], status);
      FilterKeepsMatches(tasks[1..], status);
      assert tasks == [tasks[0]] + tasks[1..];
      if tasks[0].status == status {
        assert ([tasks[0]] + rest)[1..] == rest;
      } else if |rest| > 0 {
        assert rest[0] != tasks[0];
      }
    }
  }

  /** The three lanes, each filtered from the whole list. */
  function Partition(tasks: seq<Tasks.Task>): Swimlanes
  {
    Swimlanes(Filter(tasks, StatusAction.Todo), Filter(tasks, StatusAction.InProgress),
              Filter(tasks, StatusAction.Done))
  }

  /** No task sits in two lanes, and a task with an unknown status sits in
      none. */
  lemma LanesDisjoint(tasks: seq<Tasks.Task>, t: Tasks.Task)
    ensures var l := Partition(tasks);
            && !(t in l.todo && t in l.inProgress)
            && !(t in l.todo && t in l.done)
            && !(t in l.inProgress && t in l.done)
            && (!StatusAction.AcceptedStatus(t.status)
                ==> t !in l.todo && t !in l.inProgress && t !in l.done)
  {
  }

  /** Tasks with a status outside the three lanes. */
  function Unrecognised(tasks: seq<Tasks.Task>): (n: nat)
  {
    if |tasks| == 0 then 0
    else (if StatusAction.AcceptedStatus(tasks[0].status) then 0 else 1) + Unrecognised(tasks[1..])
  }

  /** The lanes together hold every task except the unrecognised ones. */
  lemma {:induction false} LaneSizes(tasks: seq<Tasks.Task>)
    ensures var l := Partition(tasks);
            |l.todo| + |l.inProgress| + |l.done| + Unrecognised(tasks) == |tasks|
  {
    if |tasks| > 0 {
      LaneSizes(tasks[1..]);
    }
  }

  /** So the lanes never hold more than the list, and hold all of it
      exactly when every status is recognised. */
  lemma {:induction false} LanesCoverIffRecognised(tasks: seq<Tasks.Task>)
    ensures var l := Partition(tasks);
            && |l.todo| + |l.inProgress| + |l.done| <= |tasks|
            && (|l.todo| + |l.inProgress| + |l.done| == |tasks|
                <==> forall i :: 0 <= i < |tasks| ==> StatusAction.AcceptedStatus(tasks[i].status))
  {
    LaneSizes(tasks);
    UnrecognisedZero(tasks);
  }

  lemma {:induction false} UnrecognisedZero(tasks: seq<Tasks.Task>)
    ensures Unrecognised(tasks) == 0
            <==> forall i :: 0 <= i < |tasks| ==> StatusAction.AcceptedStatus(tasks[i].status)
  {
    if |tasks| > 0 {
      UnrecognisedZero(tasks[1..]);
      assert forall i :: 1 <= i < |tasks| ==> tasks[i] == tasks[1..][i - 1];
    }
  }
}

=== FILE: tasks_new.dfy ===
/** The new-task form action: validate the title, default the body and the
    colour, create the task in state "todo" for the signed-in user, and
    redirect to the task list. */
module NewTask {
  import opened Base
  import Tasks

  const TitleRequired: string := "Title is required"
  const DefaultColor: string := "bg-white"

  datatype FieldErrors = FieldErrors(body: Option<string>, title: Option<string>,
                                     color: Option<string>)

  datatype NewTaskResponse =
    | BadRequest(status: int, errors: FieldErrors)
    | Redirect(location: string, store: Tasks.Store)

  /** The body to store: the submitted text when non-empty, else null. */
  function BodyOf(form: FormData): (b: Option<string>)
    ensures b.None? <==> !Truthy(FieldString(Field(form, "body")))
    ensures b.Some? ==> b == FieldString(Field(form, "body")) && |b.value| > 0
  {
    var body := FieldString(Field(form, "body"));
    if Truthy(body) then body else None
  }

  /** The colour to store: the submitted text when non-empty, else
      "bg-white". */
  function ColorOf(form: FormData): (c: string)
    ensures !Truthy(FieldString(Field(form, "color"))) ==> c == DefaultColor
    ensures Truthy(FieldString(Field(form, "color"))) ==> Some(c) == FieldString(Field(form, "color"))
  {
    OrElse(FieldString(Field(form, "color")), DefaultColor)
  }

  /** The action for user `u`; `id` and `now` are the id and timestamp the
      database assigns to the new row. */
  function NewTaskAction(st: Tasks.Store, form: FormData, u: Tasks.UserId, id: Tasks.TaskId, now: int)
    : (r: NewTaskResponse)
    requires id !in st.tasks && u in st.users
    ensures r.BadRequest? <==> !NonEmptyText(Field(form, "title"))
    ensures r.BadRequest? ==> r == BadRequest(400, FieldErrors(None, Some(TitleRequired), None))
    ensures r.Redirect? ==>
              && r.location == "/tasks"
              && r.store.tasks.Keys == st.tasks.Keys + {id}
              && r.store.tasks[id] == Tasks.Task(u, form["title"].s, BodyOf(form), ColorOf(form),
                                                 "todo", now)
              && (forall k :: k in st.tasks ==> r.store.tasks[k] == st.tasks[k])
              && r.store.grants == st.grants && r.store.users == st.users
  {
    var title := Field(form, "title");
    if !(title.Some? && title.value.Text? && |title.value.s| > 0) then
      BadRequest(400, FieldErrors(None, Some(TitleRequired), None))
    else
      Redirect("/tasks", Tasks.CreateTask(st, id, title.value.s, BodyOf(form), ColorOf(form),
                                          "todo", u, now))
  }

  /** Only an empty title is refused: a title of spaces is accepted. */
  lemma BlankTitleAccepted(st: Tasks.Store, u: Tasks.UserId, id: Tasks.TaskId, now: int)
    requires id !in st.tasks && u in st.users
    ensures NewTaskAction(st, map["title" := Text(" ")], u, id, now).Redirect?
    ensures NewTaskAction(st, map["title" := Text("")], u, id, now).BadRequest?
    ensures NewTaskAction(st, map["title" := File], u, id, now).BadRequest?
  {
  }

  /** A title-only form creates a task with no body, a white card and the
      caller as owner, in state "todo", visible to the caller as owner. */
  lemma TitleOnlyDefaults(st: Tasks.Store, u: Tasks.UserId, id: Tasks.TaskId, now: int, title: string)
    requires id !in st.tasks && u in st.users && Tasks.Valid(st)
    requires |title| > 0
    ensures var r := NewTaskAction(st, map["title" := Text(title)], u, id, now);
            && r.Redirect?
            && r.store.tasks[id] == Tasks.Task(u, title, None, DefaultColor, "todo", now)
            && Tasks.AccessLevel(r.store, id, u) == Tasks.Ok(Tasks.OwnerLevel)
  {
    var form := map["title" := Text(title)];
    assert Field(form, "body") == None;
    assert Field(form, "color") == None;
  }
}
